=== FILE: README.md ===
# STRING-DB MCP bridge — a Dafny model

`stringmcp/main.py` is a Model Context Protocol (MCP) server. It reads
JSON-RPC 2.0 messages, one per line, answers `initialize`, `tools/list`,
`tools/call`, `resources/list` and `prompts/list`, and exposes four tools
backed by the STRING protein-interaction REST API:

- `map_identifiers`
- `get_network_interactions`
- `get_functional_enrichment`
- `get_version_info`

This project models the two classes of that file and proves what they
promise a client.

- **`pyjson.dfy`, module `PyJson`.** Decoded JSON values as Python sees them:
  - `None` is `JNull`.
  - A dict is an ordered list of entries; lookup finds the last entry for a key.
  - Also modelled: `dict.get`, item assignment, truthiness, `str`/`repr`, `int()` on a JSON value, `str.join`, and the `AttributeError` of `.get` on a value that is not a dict.
  - Exceptions become a three-way `Fault`:
    - `requests.RequestException`;
    - `ValueError`;
    - any other exception.
- **`bridge.dfy`, module `StringBridge`.** `StringDBBridge`:
  - How each API method builds its query parameters.
  - How `_make_request` adds `caller_identity`.
  - How the JSON body is normalised to a list.
  - `Bridge` and `QueryParams` are classes whose methods update the parameter dict in place. Each is proved equal to a pure function of its inputs.
  - The HTTP session, including `raise_for_status` and `.json()`, is a function parameter `get`: it returns a decoded body or the text of an HTTP failure.
- **`server.dfy`, module `McpServer`.** `StringMCPServer`:
  - The payload helpers, the tool catalogue and the handlers.
  - `_send`.
  - The `run` loop: `Server.Run`, whose state is the current request id and the list of messages written so far.
  - The pure specification, made of `Dispatch`, `StepLine` and `RunLines`, also records the exception that ends the loop. `json.loads` and `json.dumps(..., indent=2)` are function parameters.
- **`properties.dfy`, module `ServerProperties`.** The protocol-level guarantees:
  - Notifications are never answered.
  - Every request with an id that does not raise out of the loop gets one well-formed response with its own id. A request with a known method gets a result, never an error. The requests that raise, and every line after them, get no response.
  - A tool call with dict params is always answered with a result, never a JSON-RPC error. A tool call whose params is not a dict raises out of the loop, as the code is written (see "## Findings").
  - The tool catalogue and the `initialize` handshake have the stated contents.
  - Over a whole run, the ids of the replies are those of the requests, in order, up to the first line that raises.

## Model

| member | source | states |
|---|---|---|
| PyJson.HasKeyIff | stringmcp/main.py:66 | `key in d` holds exactly when some entry of the dict carries the key |
| PyJson.GetIsLastEntry | stringmcp/main.py:324 | a present key's value is that of its last entry, and no later entry has the key (duplicate keys in decoded JSON keep the last) |
| PyJson.GetOr | stringmcp/main.py:330-332 | `d.get(key, default)` is the stored value when the key is present and the default otherwise |
| PyJson.GetFrom | stringmcp/main.py:254-255 | `.get` succeeds exactly on a dict; on any other value it raises the AttributeError naming that value's type |
| PyJson.Replace | stringmcp/main.py:66-67 | proof step of `GetPut` (no assignment in the code meets a key that is already present): assigning to a present key keeps the dict's length |
| PyJson.ReplaceAt | stringmcp/main.py:66-67 | proof step of `GetPut` and `PutKeepsPositions`: assigning to a present key changes exactly the entries with that key, to the new value |
| PyJson.GetReplace | stringmcp/main.py:66-67 | proof step of `GetPut`: after replacement the key maps to the new value and every other key to its old value |
| PyJson.GetAppend | stringmcp/main.py:67 | a new key added last maps to its value, and every other key keeps its lookup |
| PyJson.GetPut | stringmcp/main.py:89-90 | after `d[key] = value`, `key` maps to `value`, every other key is unchanged, and the key set grows by exactly `key` |
| PyJson.PutKeepsPositions | stringmcp/main.py:89-90 | assigning to a present key moves no key: insertion order is kept |
| PyJson.Keys | stringmcp/main.py:86 | iterating a dict yields only keys that are present |
| PyJson.KeysSpec | stringmcp/main.py:86 | iterating a dict yields every present key exactly once |
| PyJson.KeysInOrder | stringmcp/main.py:86 | a dict with no repeated key is iterated in the order of its entries, which is insertion order |
| PyJson.PutNewKeyLast | stringmcp/main.py:89-90 | assigning to a key that is not present makes it the last key iterated |
| PyJson.ValueAt | stringmcp/main.py:298 | `d[key]`, as `repr` of a dict reads it, is the value `get` finds and is stored in some entry with that key |
| PyJson.NatToString | stringmcp/main.py:87 | a printed natural number is a non-empty string of decimal digits |
| PyJson.Str | stringmcp/main.py:298 | `str` of a str is itself, `str(None)` is `"None"`, a bool prints as `True` or `False` and an int as its decimal form |
| PyJson.StrReprPlain | stringmcp/main.py:87 | `repr` of a str with no quote, backslash or control character is that str in single quotes |
| PyJson.ReprList | stringmcp/main.py:298 | `repr` of a list with up to two items: `[]`, `[x]` and `[x, y]`, items repr'd and separated by ", " |
| PyJson.JoinStringsSnoc | stringmcp/main.py:298 | proof step of `ReprListAppend`: joining one more part appends the separator and the part |
| PyJson.ReprListAppend | stringmcp/main.py:298 | one more item at the end of a non-empty list goes before the closing bracket, after ", "; with `ReprList` this fixes the `repr` of every list |
| PyJson.ReprDict | stringmcp/main.py:298 | `repr` of a dict is `{}` when empty, and a key's repr, ": " and the value's repr between braces for one entry |
| PyJson.SingleEntry | stringmcp/main.py:298 | proof step of `ReprDict`: a one-entry dict has that one key, holding that value |
| PyJson.StripSpec | stringmcp/main.py:319-321 | `line.strip()`, and the stripping `int()` does, give a slice of the string with only white space of their kind before and after it and none at its own ends; `line.strip()` is empty, so the line is skipped, exactly when the line is all white space |
| PyJson.DigitsValueOfNatToString | stringmcp/main.py:87 | reading back a printed natural number gives the number |
| PyJson.StripIntToString | stringmcp/main.py:87 | proof step of `ParseIntLiteralOfIntToString`: a printed integer has no surrounding white space |
| PyJson.ParseIntLiteralOfIntToString | stringmcp/main.py:87 | the literal reader inverts the literal printer: the unsigned part of a printed integer is the digits of its magnitude, and reading it back gives the integer |
| PyJson.StrToInt | stringmcp/main.py:87 | `int(s)` on a str converts exactly when `s` is a decimal literal, with only `int()`'s white space around it, of at most 4300 digits, and then to the value the literal denotes; a str whose digits run past 4300 raises the digit-limit ValueError; any other str raises "invalid literal for int() with base 10: " followed by the str's repr cut to 200 characters; every failure is a ValueError |
| PyJson.IntKeepsSeparators | stringmcp/main.py:87 | `int()` does not skip the separators 0x1c-0x1f that `str.strip()` removes: `"\x1c1".strip()` is `"1"`, while `int("\x1c1")` raises the invalid-literal ValueError quoting `'\x1c1'` |
| PyJson.ToInt | stringmcp/main.py:87 | `int(x)`: a bool gives 0 or 1, an int itself and a str what `StrToInt` gives; None, lists and dicts raise a TypeError; it never raises an HTTP failure |
| PyJson.ToIntOfIntToString | stringmcp/main.py:87 | `int(str(n)) == n` for every integer whose decimal form is within the 4300-digit limit |
| PyJson.FirstNonStr | stringmcp/main.py:86 | finds the first item that is not a str, or reports that all items are strs |
| PyJson.JoinIterable | stringmcp/main.py:86 | `sep.join` of a list succeeds exactly when every item is a str, and then joins exactly those strs; otherwise it raises "sequence item k: expected str instance, T found" for the first non-str item k; a str is joined character by character, a dict by its keys, and None, bools and ints raise "can only join an iterable"; every failure is a TypeError |
| PyJson.Split | stringmcp/main.py:86 | the inverse of the `\r`-join, used only to state `IdentifiersRoundTrip`; the code never splits |
| PyJson.SplitNoSep | stringmcp/main.py:86 | proof step of `SplitJoin`: a piece without the separator splits to itself |
| PyJson.SplitPiece | stringmcp/main.py:86 | proof step of `SplitJoin`: splitting peels one separator-free piece off the front |
| PyJson.SplitJoin | stringmcp/main.py:86 | splitting a join on a separator absent from every part gives back the parts |
| StringBridge.WithCallerIdentity | stringmcp/main.py:66-67 | `caller_identity` is present afterwards; it is added last with the configured value only when absent, and otherwise the params are unchanged |
| StringBridge.GetWithCallerIdentity | stringmcp/main.py:66-67 | every key other than `caller_identity` keeps its lookup, and a `caller_identity` the caller supplied is kept |
| StringBridge.WithCallerIdentityIdempotent | stringmcp/main.py:66-67 | adding the caller identity twice is the same as adding it once |
| StringBridge.GetPutWhen | stringmcp/main.py:89-90 | a conditional assignment sets the key only when its condition holds and changes no other key |
| StringBridge.MapIdentifiersParamsLookup | stringmcp/main.py:85-90 | the query holds the `\r`-joined identifiers and `echo_query`, plus `species` only when it is not None, and nothing else |
| StringBridge.MapIdentifiersQuery | stringmcp/main.py:82-90 | empty identifiers raise "identifiers list cannot be empty"; otherwise a join failure or an `int(echo_query)` failure is raised, in that order; when none of these fail the query is `MapIdentifiersParams` of the `\r`-joined identifiers, `int(echo_query)` and the species |
| StringBridge.NetworkParamsLookup | stringmcp/main.py:106-116 | the query holds identifiers, network_type and show_query_node_labels 0, plus species and required_score only when not None and add_nodes only when truthy, and nothing else |
| StringBridge.NetworkQuery | stringmcp/main.py:103-116 | empty identifiers raise the bridge's ValueError, a join failure is raised, and otherwise the query is `NetworkParams` of the `\r`-joined identifiers and the other arguments as given |
| StringBridge.EnrichmentParamsLookup | stringmcp/main.py:130-134 | the query holds the joined identifiers, plus species only when not None and `background_string_identifiers` only when a joined background is given, and nothing else |
| StringBridge.EnrichmentQuery | stringmcp/main.py:127-134 | empty identifiers raise the bridge's ValueError; a join failure of the identifiers or of a truthy background is raised; otherwise the query is `EnrichmentParams` of the `\r`-joined identifiers, the species, and the `\r`-joined background when it is truthy or no background when it is not |
| StringBridge.IdentifiersRoundTrip | stringmcp/main.py:86 | identifiers without `\r` are recovered exactly by splitting the joined query value on `\r` |
| StringBridge.AsList | stringmcp/main.py:93 | a list body is returned as is; any other body becomes `[]` |
| StringBridge.AsVersionList | stringmcp/main.py:140-145 | a list body is returned as is, a dict body becomes a one-element list, anything else `[]` |
| StringBridge.VersionListAgreesOnNonDicts | stringmcp/main.py:139-145 | the version endpoint normalises like the plural endpoints except that it wraps a dict instead of dropping it |
| StringBridge.Fetch | stringmcp/main.py:70-72 | every failure of a request is an HTTP failure |
| StringBridge.ListResult | stringmcp/main.py:92-93 | a query error is raised without any request; otherwise exactly one GET to `<base>/json/<endpoint>` is sent with the caller identity added, and its body is normalised to a list |
| StringBridge.VersionResult | stringmcp/main.py:139-145 | one GET to `/json/version` with only the caller identity, and the body normalised by the version rule |
| StringBridge.QueryParams.constructor | stringmcp/main.py:85-88 | the parameter dict starts as the given literal |
| StringBridge.QueryParams.Put | stringmcp/main.py:89-90 | item assignment updates the dict in place as `Put` describes |
| StringBridge.Bridge.constructor | stringmcp/main.py:51-53 | the configuration is the one given, or the default one, and the session is the one given |
| StringBridge.Bridge.MakeRequest | stringmcp/main.py:56-73 | the caller's params dict gains `caller_identity` in place, and the GET is sent to `<base>/<format>/<endpoint>` with those params |
| StringBridge.Bridge.RequestJson | stringmcp/main.py:92 | a JSON request returns what `Fetch` specifies for the params as they were before the call |
| StringBridge.Bridge.RequestList | stringmcp/main.py:92-93 | a list endpoint's method returns exactly `ListResult` |
| StringBridge.Bridge.MapIdentifiers | stringmcp/main.py:76-93 | `map_identifiers` returns exactly `MapIdentifiersResult` |
| StringBridge.Bridge.GetNetworkInteractions | stringmcp/main.py:95-119 | `get_network_interactions` returns exactly `NetworkResult` |
| StringBridge.Bridge.GetFunctionalEnrichment | stringmcp/main.py:121-137 | `get_functional_enrichment` returns exactly `EnrichmentResult` |
| StringBridge.Bridge.GetVersionInfo | stringmcp/main.py:139-145 | `get_version_info` returns exactly `VersionResult` |
| McpServer.SuccessResult | stringmcp/main.py:161-164 | a success payload is never an error, and a list or dict is pretty-printed by `json.dumps` |
| McpServer.ErrorResult | stringmcp/main.py:166-168 | an error payload has `isError` true and the text "Error: " followed by the message |
| McpServer.Server.constructor | stringmcp/main.py:152-154 | a new server owns a bridge with the default configuration and starts with a null request id and no output |
| McpServer.Server.Send | stringmcp/main.py:170-182 | `_send` appends nothing for a null request id and otherwise exactly the response `Response` describes |
| McpServer.Server.HandleInitialize | stringmcp/main.py:185-192 | `initialize` sends `InitializeResult`, or raises out of the loop with nothing written when params is not a dict |
| McpServer.Server.HandleListTools | stringmcp/main.py:194-251 | `tools/list` sends the four descriptors |
| McpServer.Server.CallBridge | stringmcp/main.py:258-295 | the bridge call of a known tool gives exactly `RunTool`: the arguments' defaults, the empty-identifiers refusal and the bridge's outcome |
| McpServer.Server.HandleCallTool | stringmcp/main.py:253-306 | `tools/call` raises with nothing written when `params.get` fails on params that are not a dict, and otherwise sends exactly one tool result, the one `CallToolAsWritten` gives |
| McpServer.Server.HandleRequest | stringmcp/main.py:341-352 | the method chain sends what `Answer` gives, or raises with nothing written |
| McpServer.Server.HandleLine | stringmcp/main.py:318-352 | one loop iteration changes the request id, the output and the raised exception exactly as `StepLine` says |
| McpServer.Server.Run | stringmcp/main.py:316-352 | the loop over all input lines ends in the state `RunLines` gives |
| McpServer.RunStopsAfterRaise | stringmcp/main.py:318-352 | once a line has raised, the lines after it change nothing |
| ServerProperties.ResponseShape | stringmcp/main.py:170-182 | a null id writes nothing; any other id writes one response with jsonrpc "2.0" and that id; it holds the error when there is one and otherwise the result, or `{}` for a falsy result, never both |
| ServerProperties.NotificationIsSilent | stringmcp/main.py:330-339 | a request dict gets no reply exactly when its id is absent or null, `notifications/initialized` included |
| ServerProperties.OnlyBadParamsRaise | stringmcp/main.py:185-186 | the only request dicts that raise out of the loop are `initialize` and `tools/call` requests whose params is not a dict, and they raise the AttributeError of `params.get` |
| ServerProperties.DispatchResponds | stringmcp/main.py:341-352 | proof step of `RequestGetsOneResponse` and `KnownMethodReply`: a request with an id that does not raise is answered with what its handler passes to `_send` |
| ServerProperties.RequestGetsOneResponse | stringmcp/main.py:330-352 | every request with an id that is not one of those crashing requests gets exactly one JSON-RPC 2.0 response carrying its own id |
| ServerProperties.KnownMethodAnswer | stringmcp/main.py:341-350 | the handler of a known method passes no error to `_send`, and the two stubs pass `{"resources": []}` and `{"prompts": []}` |
| ServerProperties.KnownMethodReply | stringmcp/main.py:341-350 | a request with an id and a known method that does not raise is answered with a result and no error |
| ServerProperties.StubReplies | stringmcp/main.py:309-313 | `resources/list` is answered with `{"resources": []}` and `prompts/list` with `{"prompts": []}` |
| ServerProperties.StubResults | stringmcp/main.py:309-313 | the stubs' results are sent unchanged under `result`, with no `error` |
| ServerProperties.UnknownMethodReply | stringmcp/main.py:351-352 | an unknown method gets error code -32601 with message "Method not found: <method>" and no result |
| ServerProperties.ToolResultShape | stringmcp/main.py:157-168 | a tool result carries `isError` and one text block, and is never falsy |
| ServerProperties.ToolCallReply | stringmcp/main.py:253-306 | `tools/call` with dict params is answered with a result, never with a JSON-RPC error; with params that are not a dict it raises the AttributeError, unanswered |
| ServerProperties.ToolErrorsArePayloads | stringmcp/main.py:298-306 | for the corrected handler `CallTool` (see "## Findings"), a tool result is an error exactly when the params are not a dict, the tool is unknown, or running the tool failed; error texts start with "Error: " |
| ServerProperties.UnknownToolPayload | stringmcp/main.py:298-299 | an unknown tool name gives the error payload "Unknown tool: <name>" |
| ServerProperties.EmptyIdentifiersSkipBridge | stringmcp/main.py:258-260 | missing or empty identifiers give "identifiers parameter is required and cannot be empty" whatever the session and configuration, so the bridge is not called |
| ServerProperties.BridgeFailurePayload | stringmcp/main.py:301-302 | an HTTP failure in the bridge gives the error payload "HTTP request failed: <reason>" |
| ServerProperties.NonDictArguments | stringmcp/main.py:305-306 | arguments that are not a dict give the internal-error payload of the AttributeError |
| ServerProperties.SuccessPayload | stringmcp/main.py:262-267 | a successful tool call pretty-prints the bridge's list with `isError` false |
| ServerProperties.ToolNamedName | stringmcp/main.py:257-296 | each tool's listed name selects that tool in `tools/call` |
| ServerProperties.ToolNamedOnlyNames | stringmcp/main.py:257-299 | only the four listed names select a tool |
| ServerProperties.DescriptorSchemas | stringmcp/main.py:195-201 | every descriptor carries the same schema under `parameters` and `inputSchema`; only `get_version_info` has no `required: ["identifiers"]` |
| ServerProperties.ToolsListed | stringmcp/main.py:203-251 | `tools/list` answers with the four descriptors in order |
| ServerProperties.InitializeHandshake | stringmcp/main.py:185-192 | `initialize` echoes the client's protocolVersion (default "2025-03-26"), advertises executable tools and names the server string-mcp 0.2.0; params that are not a dict raise |
| ServerProperties.CallToolAsWrittenRaises | stringmcp/main.py:253-256 | as written, `tools/call` with a list or null params raises the AttributeError out of the handler |
| ServerProperties.BadToolCallEndsRun | stringmcp/main.py:253-256 | as written, a `tools/call` line with null params ends the run: the exception is recorded, nothing is written for it, and no later line is read |
| ServerProperties.CallToolCorrected | stringmcp/main.py:253-306 | the corrected handler answers params that are not a dict with an internal-error payload and agrees with the code as written on every dict |
| ServerProperties.StepLineRaises | stringmcp/main.py:318-332 | a line raises exactly when it decodes to a value that is not a dict, or to an `initialize` or `tools/call` request whose params is not a dict, and then writes nothing |
| ServerProperties.StepLineWrites | stringmcp/main.py:335-352 | a line that does not raise writes its request's reply when it is answered, and nothing otherwise |
| ServerProperties.LineReplyIsResponse | stringmcp/main.py:341-352 | an answered line writes exactly one response, with its request's id |
| ServerProperties.NoLineRaisesSplit | stringmcp/main.py:318 | no line raises exactly when none of the earlier lines and not the last one raise |
| ServerProperties.RunRaises | stringmcp/main.py:318-352 | a run ends with an exception exactly when one of its lines raises |
| ServerProperties.StepReplyIds | stringmcp/main.py:335-352 | a line that does not raise adds its request's id to the reply ids, or nothing |
| ServerProperties.RunReplyIds | stringmcp/main.py:316-352 | the replies of a run carry, in order, the ids of the requests read before the first line that raises |
| ServerProperties.RunWritesResponses | stringmcp/main.py:316-352 | everything a run writes is a JSON-RPC 2.0 response with exactly one of error and result |
| PyJson.Truthy | stringmcp/main.py:82 | definition of Python truthiness on decoded values; characterised by `GetPutWhen`, `NetworkParamsLookup` and `EnrichmentQuery` |
| PyJson.Put | stringmcp/main.py:66-67 | definition of `d[key] = value`; characterised by `GetPut`, `PutKeepsPositions` and `PutNewKeyLast` |
| PyJson.Repr | stringmcp/main.py:298 | definition of `repr` on decoded values; characterised by `Str` (None, bools, ints), `StrReprPlain`, `ReprList`, `ReprListAppend` and `ReprDict` |
| StringBridge.MapIdentifiersParams | stringmcp/main.py:85-90 | definition of the `map_identifiers` query dict; characterised by `MapIdentifiersParamsLookup` |
| StringBridge.NetworkParams | stringmcp/main.py:106-116 | definition of the `get_network_interactions` query dict; characterised by `NetworkParamsLookup` |
| StringBridge.EnrichmentParams | stringmcp/main.py:130-134 | definition of the `get_functional_enrichment` query dict; characterised by `EnrichmentParamsLookup` |
| StringBridge.MapIdentifiersResult | stringmcp/main.py:76-93 | definition of the outcome of `map_identifiers`; characterised by `MapIdentifiersQuery`, `ListResult` and `Bridge.MapIdentifiers` |
| StringBridge.NetworkResult | stringmcp/main.py:95-119 | definition of the outcome of `get_network_interactions`; characterised by `NetworkQuery`, `ListResult` and `Bridge.GetNetworkInteractions` |
| StringBridge.EnrichmentResult | stringmcp/main.py:121-137 | definition of the outcome of `get_functional_enrichment`; characterised by `EnrichmentQuery`, `ListResult` and `Bridge.GetFunctionalEnrichment` |
| McpServer.Response | stringmcp/main.py:176-180 | definition of the response `_send` writes; characterised by `ResponseShape` |
| McpServer.Emitted | stringmcp/main.py:170-182 | definition of what `_send` writes; characterised by `ResponseShape` and `Server.Send` |
| McpServer.InitializeResult | stringmcp/main.py:185-192 | definition of the result of `_handle_initialize`; characterised by `InitializeHandshake` |
| McpServer.ToolNamed | stringmcp/main.py:257-299 | definition of the tool-name chain; characterised by `ToolNamedName` and `ToolNamedOnlyNames` |
| McpServer.RunTool | stringmcp/main.py:258-295 | definition of the `try` body for a known tool; characterised by `EmptyIdentifiersSkipBridge`, `NonDictArguments` and `Server.CallBridge` |
| McpServer.CallToolAsWritten | stringmcp/main.py:253-306 | definition of `_handle_call_tool` as written; characterised by `CallToolAsWrittenRaises`, `CallToolCorrected` and `ToolCallReply` |
| McpServer.CallTool | stringmcp/main.py:253-306 | definition of the corrected `_handle_call_tool`; characterised by `CallToolCorrected`, `ToolErrorsArePayloads` and `UnknownToolPayload` |
| McpServer.Answer | stringmcp/main.py:341-352 | the method chain raises exactly for `initialize` and `tools/call` with params that are not a dict, and then with the AttributeError of `params.get`; what it passes to `_send` otherwise is characterised by `DispatchResponds`, `UnknownMethodReply` and `Server.HandleRequest` |
| McpServer.OtherAnswer | stringmcp/main.py:347-352 | definition of the end of the method chain: the two stubs, then the unknown-method error; characterised by `KnownMethodAnswer`, `StubReplies` and `UnknownMethodReply` |
| McpServer.Dispatch | stringmcp/main.py:330-352 | definition of the reply to one decoded request dict; characterised by `NotificationIsSilent`, `OnlyBadParamsRaise` and `RequestGetsOneResponse` |
| McpServer.StepLine | stringmcp/main.py:318-352 | definition of one loop iteration; characterised by `StepLineRaises`, `StepLineWrites` and `Server.HandleLine` |
| McpServer.RunLines | stringmcp/main.py:316-352 | definition of the loop over all lines; characterised by `RunRaises`, `RunReplyIds`, `RunWritesResponses` and `Server.Run` |
| PyJson.HasKey | stringmcp/main.py:66 | definition of `key in d`; characterised by `HasKeyIff` |
| PyJson.Get | stringmcp/main.py:330-332 | definition of the lookup of a key, the last entry winning; characterised by `GetIsLastEntry`, `GetOr` and `GetPut` |
| PyJson.TypeName | stringmcp/main.py:254-255 | definition of `type(x).__name__`, which the AttributeError of `.get` and the TypeErrors of `int()` and `str.join` name; characterised by `GetFrom` |
| PyJson.StrRepr | stringmcp/main.py:87 | definition of `repr` of a str, with its choice of quote; characterised by `StrReprPlain` and `IntKeepsSeparators` |
| PyJson.EscapeChars | stringmcp/main.py:87 | definition of the escapes inside a str's `repr`; characterised by `EscapePlain` and `IntKeepsSeparators` |
| PyJson.EscapePlain | stringmcp/main.py:87 | proof step of `StrReprPlain`: a str with nothing to escape is its own escaped form |
| PyJson.IsIntSpace | stringmcp/main.py:87 | definition of the white space `int()` skips: that of `str.strip()` without the separators 0x1c-0x1f; characterised by `IntKeepsSeparators` |
| PyJson.StripBlank | stringmcp/main.py:319 | definition of stripping white space of either kind; characterised by `StripSpec` |
| PyJson.Strip | stringmcp/main.py:319 | definition of `str.strip()`; characterised by `StripSpec` and `IntKeepsSeparators` |
| PyJson.Unsigned | stringmcp/main.py:87 | definition of what follows the sign once `int()` has stripped its white space; characterised by `ParseIntLiteralOfIntToString` and `StrToInt` |
| PyJson.ParseIntLiteral | stringmcp/main.py:87 | definition of the integer a decimal literal denotes; characterised by `ParseIntLiteralOfIntToString` and `StrToInt` |
| PyJson.LeadingDigits | stringmcp/main.py:87 | the count of digits a string starts with: every counted character is a digit and the next one is not |
| PyJson.Truncated | stringmcp/main.py:87 | the `%.200R` cut: at most the given number of characters, a prefix of the string, and the whole string when it is short enough |
| StringBridge.RequestUrl | stringmcp/main.py:63-64 | definition of `<base>/<format>/<endpoint>`; characterised by `Bridge.MakeRequest`, `ListResult` and `VersionResult` |
| StringBridge.JoinIds | stringmcp/main.py:86 | definition of `"\r".join(identifiers)`; characterised by `JoinIterable` and `IdentifiersRoundTrip` |
| StringBridge.PutWhen | stringmcp/main.py:89-90 | definition of `if cond: d[key] = value`; characterised by `GetPutWhen` |
| McpServer.TextBlock | stringmcp/main.py:157-159 | definition of `_text_block`; characterised by `ToolResultShape` |
| McpServer.FaultMessage | stringmcp/main.py:300-306 | definition of the message of each `except` clause; characterised by `BridgeFailurePayload`, `NonDictArguments` and `ToolErrorsArePayloads` |
| McpServer.Tool.Schema | stringmcp/main.py:207-248 | definition of a tool's input schema; characterised by `DescriptorSchemas` |
| McpServer.Descriptor | stringmcp/main.py:195-201 | definition of `desc(...)`; characterised by `DescriptorSchemas` |
| McpServer.ToolsListResult | stringmcp/main.py:203-251 | definition of the result of `tools/list`; characterised by `ToolsListed` |
| McpServer.ToolOutcome | stringmcp/main.py:262-306 | definition of the payload of a known tool's outcome, its data or the message of the `except` clause that caught it; characterised by `SuccessPayload`, `BridgeFailurePayload` and `NonDictArguments` |
| McpServer.ToolCallResult | stringmcp/main.py:257-306 | definition of the `try` of `_handle_call_tool` once `name` and `arguments` are read; characterised by `UnknownToolPayload`, `CallToolCorrected` and `ToolCallReply` |
| McpServer.MethodNotFound | stringmcp/main.py:352 | definition of the unknown-method error object; characterised by `UnknownMethodReply` |

## Left out

- The HTTP session is the function parameter `get`:
  - `requests.Session`, the 30-second timeout, `raise_for_status` and `.json()` are not modelled one by one.
  - A `.json()` decoding failure is a `RequestException`, so it is one of the HTTP failures `get` can return.
- URL query encoding of the parameter dict is not modelled: a request is the URL and the dict itself.
- `time.sleep(request_delay)` after each request is not modelled (no clock), and neither is the `request_delay` field.
- The line source is not modelled: stdin is the list of lines given to `Run`.
- Output to stdout is not modelled: each message is the JSON value passed to `json.dumps`. Its compact serialisation is not modelled.
- stderr is not modelled: the readiness banner, "Bad JSON from host", "Client says: initialized" and `traceback.print_exc` produce no state.
- `json.loads` is the function parameter `loads`, where `None` stands for a decoding error. `json.dumps(..., indent=2)` of tool data is the parameter `dumps`.
- Floating-point JSON numbers are not modelled: `Json` has integers only.
- StrToInt: strings with underscores between digits (`"1_000"`) or non-ASCII digits, which `int()` accepts, are not modelled; the model reports them as invalid literals.
- `json.loads` can raise exceptions that are not a `JSONDecodeError`: a ValueError for an integer literal over 4300 digits, or a RecursionError for deeply nested input. In the code they end `run`. The parameter `loads` has no way to say so: it either decodes a line or reports a decoding error.
- Repr: the `\xNN` escapes up to U+00FF are modelled; the `\uXXXX` and `\UXXXXXXXX` escapes of non-printable characters above U+00FF are not, and such characters are shown as they are.
- Python strs decoded from a lone surrogate escape (`"\ud800"`) are not modelled: a Dafny `char` cannot hold a surrogate.
- `OutputFormat` values other than `json`, and `use_version_url=True`, are never used by the code and have no property stated.
- `main()` and the `__main__` guard are not modelled.
- The bridge's own "identifiers list cannot be empty" check is modelled, but the server never reaches it: the server refuses empty identifiers first with its own message.
- Besides those `json.loads` exceptions, three inputs raise out of `run` as written: `initialize` with params that are not a dict, `tools/call` with params that are not a dict, and a line that decodes to a value that is not a dict. The model records the exception and stops the loop. It does not model the traceback printed on exit.

## Findings

| source | as written | input that shows it | evidently intended | confidence | as-written member | corrected member |
|---|---|---|---|---|---|---|
| stringmcp/main.py:253-256 | `params.get("name")` and `params.get("arguments", {})` run before the `try`. When `params` is not a dict, the AttributeError escapes `_handle_call_tool` and `run`, which ends the server. | a `tools/call` request with an id and `"params": []` or `"params": null` | like every other failure of a tool call, it is answered with the error payload "Error: Internal error: 'list' object has no attribute 'get'" | medium, not executed | ServerProperties.CallToolAsWrittenRaises | ServerProperties.CallToolCorrected |

The as-written handler is `McpServer.CallToolAsWritten`. `Dispatch`, `StepLine` and `Server.HandleCallTool` use it, so the loop is modelled as the code is written. `ServerProperties.BadToolCallEndsRun` shows the consequence for a whole run. The corrected handler is `McpServer.CallTool`. `CallToolCorrected` proves that it answers every input and agrees with the handler as written on every dict.

=== FILE: bridge.dfy ===
/**
 * The STRING-DB HTTP wrapper (`StringDBBridge`, stringmcp/main.py:28-145):
 * how each of the four endpoints builds its query dict, how every request is
 * tagged with the caller identity, and how a decoded response body is
 * normalised to a list.
 *
 * The HTTP session (`session.get`, `raise_for_status` and `.json()`) is the
 * bridge's `get` oracle: given the URL and the query dict it yields either a
 * decoded body or the failure `requests` would raise.
 */
module StringBridge {
  import opened PyJson

  /** The response formats STRING serves; only JSON is requested here. */
  datatype OutputFormat =
    | Tsv | TsvNoHeader | JsonBody | Xml | Image | HighresImage | Svg | PsiMi | PsiMiTab
  {
    function Value(): string {
      match this
      case Tsv => "tsv"
      case TsvNoHeader => "tsv-no-header"
      case JsonBody => "json"
      case Xml => "xml"
      case Image => "image"
      case HighresImage => "highres_image"
      case Svg => "svg"
      case PsiMi => "psi-mi"
      case PsiMiTab => "psi-mi-tab"
    }
  }

  /** `StringConfig` without its `request_delay` (wall-clock pacing). */
  datatype Config = Config(baseUrl: string, versionUrl: string, callerIdentity: string)

  const DEFAULT_CONFIG := Config("https://string-db.org/api",
                                 "https://version-12-0.string-db.org/api",
                                 "string_mcp_bridge")

  /** STRING's delimiter between identifiers inside one query value. */
  const ID_SEPARATOR := "\r"

  const CALLER_IDENTITY := "caller_identity"

  const EMPTY_IDENTIFIERS := "identifiers list cannot be empty"

  /** One GET: the URL and the query dict handed to `session.get`. */
  datatype HttpRequest = HttpRequest(url: string, params: Dict)

  /** What a GET yields once `raise_for_status` and `.json()` have run. */
  datatype Fetched = Body(data: Json) | HttpError(msg: string)

  function RequestUrl(cfg: Config, endpoint: string, fmt: OutputFormat, useVersionUrl: bool): string {
    (if useVersionUrl then cfg.versionUrl else cfg.baseUrl) + "/" + fmt.Value() + "/" + endpoint
  }

  /** The query dict after `_make_request` has tagged it: `caller_identity`
    * is set to the configured value only when the caller did not supply one,
    * and every other key keeps its value and its position. */
  function WithCallerIdentity(cfg: Config, params: Dict): (r: Dict)
    ensures HasKey(r, CALLER_IDENTITY)
    ensures HasKey(params, CALLER_IDENTITY) ==> r == params
    ensures !HasKey(params, CALLER_IDENTITY) ==> r == params + [(CALLER_IDENTITY, JStr(cfg.callerIdentity))]
  {
    if HasKey(params, CALLER_IDENTITY) then params
    else Put(params, CALLER_IDENTITY, JStr(cfg.callerIdentity))
  }

  /** The caller's own `caller_identity` wins; the configured one is added
    * only when absent; no other key changes. */
  lemma GetWithCallerIdentity(cfg: Config, params: Dict, k: string)
    ensures Get(WithCallerIdentity(cfg, params), k) ==
            if k == CALLER_IDENTITY && !HasKey(params, CALLER_IDENTITY) then Some(JStr(cfg.callerIdentity))
            else Get(params, k)
  {
    if !HasKey(params, CALLER_IDENTITY) {
      GetPut(params, CALLER_IDENTITY, JStr(cfg.callerIdentity), k);
    }
  }

  /** Tagging twice is tagging once. */
  lemma WithCallerIdentityIdempotent(cfg: Config, params: Dict)
    ensures WithCallerIdentity(cfg, WithCallerIdentity(cfg, params)) == WithCallerIdentity(cfg, params)
  {
    assert HasKey(WithCallerIdentity(cfg, params), CALLER_IDENTITY);
  }

  // ---------------------------------------------------------------------------
  // Query dicts
  // ---------------------------------------------------------------------------

  /** The joined identifiers, as `"\r".join(ids)` computes them. */
  function JoinIds(ids: Json): Result<string> {
    JoinIterable(ID_SEPARATOR, ids)
  }

  /** `if cond: d[key] = value`. */
  function PutWhen(d: Dict, cond: bool, key: string, value: Json): Dict {
    if cond then Put(d, key, value) else d
  }

  lemma GetPutWhen(d: Dict, cond: bool, key: string, value: Json, k: string)
    ensures Get(PutWhen(d, cond, key, value), k) == if cond && k == key then Some(value) else Get(d, k)
  {
    if cond {
      GetPut(d, key, value, k);
    }
  }

  /** The dict `map_identifiers` sends once the identifiers are joined and
    * `echo_query` converted. */
  function MapIdentifiersParams(joined: string, echo: int, species: Json): Dict {
    var p0 := [("identifiers", JStr(joined)), ("echo_query", JInt(echo))];
    PutWhen(p0, species != JNull, "species", species)
  }

  /** `identifiers` and `echo_query` always, `species` exactly when it is not
    * None, and no other key. */
  lemma MapIdentifiersParamsLookup(joined: string, echo: int, species: Json, k: string)
    ensures Get(MapIdentifiersParams(joined, echo, species), k) ==
            if k == "identifiers" then Some(JStr(joined))
            else if k == "echo_query" then Some(JInt(echo))
            else if k == "species" && species != JNull then Some(species)
            else None
  {
    var e0 := ("identifiers", JStr(joined));
    var e1 := ("echo_query", JInt(echo));
    assert Get([e0, e1], k) == if k == "echo_query" then Some(JInt(echo))
                               else if k == "identifiers" then Some(JStr(joined))
                               else None by {
      assert [e0, e1] == [] + [e0] + [e1];
      GetAppend([] + [e0], e1.0, e1.1, k);
      GetAppend([], e0.0, e0.1, k);
    }
    GetPutWhen([e0, e1], species != JNull, "species", species, k);
  }

  /** `map_identifiers`' query: an empty identifier list is a ValueError;
    * joining the identifiers and `int(echo_query)` may raise, in that order;
    * otherwise the dict of `MapIdentifiersParams`. */
  function MapIdentifiersQuery(ids: Json, species: Json, echoQuery: Json): (r: Result<Dict>)
    ensures !Truthy(ids) ==> r == Err(ValueFault(EMPTY_IDENTIFIERS))
    ensures Truthy(ids) && JoinIds(ids).Err? ==> r == Err(JoinIds(ids).fault)
    ensures Truthy(ids) && JoinIds(ids).Ok? && ToInt(echoQuery).Err? ==> r == Err(ToInt(echoQuery).fault)
    ensures r.Ok? <==> Truthy(ids) && JoinIds(ids).Ok? && ToInt(echoQuery).Ok?
    ensures r.Ok? ==> r.value == MapIdentifiersParams(JoinIds(ids).value, ToInt(echoQuery).value, species)
  {
    if !Truthy(ids) then Err(ValueFault(EMPTY_IDENTIFIERS))
    else
      var joined :- JoinIds(ids);
      var echo :- ToInt(echoQuery);
      Ok(MapIdentifiersParams(joined, echo, species))
  }

  /** The dict `get_network_interactions` sends once the identifiers are joined. */
  function NetworkParams(joined: string, species: Json, requiredScore: Json, addNodes: Json, networkType: Json)
    : Dict
  {
    var p0 := [("identifiers", JStr(joined)), ("network_type", networkType), ("show_query_node_labels", JInt(0))];
    var p1 := PutWhen(p0, species != JNull, "species", species);
    var p2 := PutWhen(p1, requiredScore != JNull, "required_score", requiredScore);
    PutWhen(p2, Truthy(addNodes), "add_nodes", addNodes)
  }

  /** Identifiers, the network type and `show_query_node_labels = 0` always;
    * `species` and `required_score` exactly when not None; `add_nodes`
    * exactly when truthy; no other key. */
  lemma NetworkParamsLookup(joined: string, species: Json, requiredScore: Json, addNodes: Json,
                            networkType: Json, k: string)
    ensures Get(NetworkParams(joined, species, requiredScore, addNodes, networkType), k) ==
            if k == "identifiers" then Some(JStr(joined))
            else if k == "network_type" then Some(networkType)
            else if k == "show_query_node_labels" then Some(JInt(0))
            else if k == "species" && species != JNull then Some(species)
            else if k == "required_score" && requiredScore != JNull then Some(requiredScore)
            else if k == "add_nodes" && Truthy(addNodes) then Some(addNodes)
            else None
  {
    var e0 := ("identifiers", JStr(joined));
    var e1 := ("network_type", networkType);
    var e2 := ("show_query_node_labels", JInt(0));
    var p0 := [e0, e1, e2];
    var g0 := if k == "show_query_node_labels" then Some(JInt(0))
              else if k == "network_type" then Some(networkType)
              else if k == "identifiers" then Some(JStr(joined))
              else None;
    assert Get(p0, k) == g0 by {
      assert p0 == [e0, e1] + [e2];
      assert [e0, e1] == [e0] + [e1];
      GetAppend([e0, e1], e2.0, e2.1, k);
      GetAppend([e0], e1.0, e1.1, k);
    }
    var p1 := PutWhen(p0, species != JNull, "species", species);
    var g1 := if species != JNull && k == "species" then Some(species) else g0;
    assert Get(p1, k) == g1 by {
      GetPutWhen(p0, species != JNull, "species", species, k);
    }
    var p2 := PutWhen(p1, requiredScore != JNull, "required_score", requiredScore);
    var g2 := if requiredScore != JNull && k == "required_score" then Some(requiredScore) else g1;
    assert Get(p2, k) == g2 by {
      GetPutWhen(p1, requiredScore != JNull, "required_score", requiredScore, k);
    }
    var p3 := PutWhen(p2, Truthy(addNodes), "add_nodes", addNodes);
    var g3 := if Truthy(addNodes) && k == "add_nodes" then Some(addNodes) else g2;
    assert Get(p3, k) == g3 by {
      GetPutWhen(p2, Truthy(addNodes), "add_nodes", addNodes, k);
    }
    assert NetworkParams(joined, species, requiredScore, addNodes, networkType) == p3;
  }

  /** `get_network_interactions`' query: an empty identifier list is a
    * ValueError; joining may raise; otherwise the dict of `NetworkParams`. */
  function NetworkQuery(ids: Json, species: Json, requiredScore: Json, addNodes: Json, networkType: Json)
    : (r: Result<Dict>)
    ensures !Truthy(ids) ==> r == Err(ValueFault(EMPTY_IDENTIFIERS))
    ensures Truthy(ids) && JoinIds(ids).Err? ==> r == Err(JoinIds(ids).fault)
    ensures r.Ok? <==> Truthy(ids) && JoinIds(ids).Ok?
    ensures r.Ok? ==> r.value == NetworkParams(JoinIds(ids).value, species, requiredScore, addNodes, networkType)
  {
    if !Truthy(ids) then Err(ValueFault(EMPTY_IDENTIFIERS))
    else
      var joined :- JoinIds(ids);
      Ok(NetworkParams(joined, species, requiredScore, addNodes, networkType))
  }

  /** The dict `get_functional_enrichment` sends once the identifiers (and,
    * when given, the background identifiers) are joined. */
  function EnrichmentParams(joined: string, species: Json, background: Option<string>): Dict {
    var p0 := [("identifiers", JStr(joined))];
    var p1 := PutWhen(p0, species != JNull, "species", species);
    PutWhen(p1, background.Some?, "background_string_identifiers",
            if background.Some? then JStr(background.value) else JNull)
  }

  /** Identifiers always; `species` exactly when not None; the joined
    * background exactly when one is given; no other key. */
  lemma EnrichmentParamsLookup(joined: string, species: Json, background: Option<string>, k: string)
    ensures Get(EnrichmentParams(joined, species, background), k) ==
            if k == "identifiers" then Some(JStr(joined))
            else if k == "species" && species != JNull then Some(species)
            else if k == "background_string_identifiers" && background.Some? then Some(JStr(background.value))
            else None
  {
    var e0 := ("identifiers", JStr(joined));
    assert Get([e0], k) == if k == "identifiers" then Some(JStr(joined)) else None by {
      assert [e0] == [] + [e0];
      GetAppend([], e0.0, e0.1, k);
    }
    var p1 := PutWhen([e0], species != JNull, "species", species);
    var bg := if background.Some? then JStr(background.value) else JNull;
    GetPutWhen([e0], species != JNull, "species", species, k);
    GetPutWhen(p1, background.Some?, "background_string_identifiers", bg, k);
  }

  /** `get_functional_enrichment`' query: an empty identifier list is a
    * ValueError; joining either list may raise; the background is joined
    * only when truthy; otherwise the dict of `EnrichmentParams`. */
  function EnrichmentQuery(ids: Json, species: Json, background: Json): (r: Result<Dict>)
    ensures !Truthy(ids) ==> r == Err(ValueFault(EMPTY_IDENTIFIERS))
    ensures Truthy(ids) && JoinIds(ids).Err? ==> r == Err(JoinIds(ids).fault)
    ensures Truthy(ids) && JoinIds(ids).Ok? && Truthy(background) && JoinIds(background).Err? ==>
              r == Err(JoinIds(background).fault)
    ensures r.Ok? <==> Truthy(ids) && JoinIds(ids).Ok? && (Truthy(background) ==> JoinIds(background).Ok?)
    ensures r.Ok? ==>
              r.value == EnrichmentParams(JoinIds(ids).value, species,
                                          if Truthy(background) then Some(JoinIds(background).value) else None)
  {
    if !Truthy(ids) then Err(ValueFault(EMPTY_IDENTIFIERS))
    else
      var joined :- JoinIds(ids);
      if Truthy(background) then
        var bg :- JoinIds(background);
        Ok(EnrichmentParams(joined, species, Some(bg)))
      else
        Ok(EnrichmentParams(joined, species, None))
  }

  /** The `identifiers` value of a query splits back into the identifiers it
    * was built from, provided none of them contains the separator. */
  lemma IdentifiersRoundTrip(strs: seq<string>)
    requires |strs| >= 1
    requires forall i :: 0 <= i < |strs| ==> '\r' !in strs[i]
    ensures JoinIds(JArr(seq(|strs|, i requires 0 <= i < |strs| => JStr(strs[i])))).Ok?
    ensures Split('\r', JoinIds(JArr(seq(|strs|, i requires 0 <= i < |strs| => JStr(strs[i])))).value) == strs
  {
    var items := seq(|strs|, i requires 0 <= i < |strs| => JStr(strs[i]));
    assert seq(|items|, i requires 0 <= i < |items| => items[i].s) == strs;
    SplitJoin('\r', strs);
  }

  // ---------------------------------------------------------------------------
  // Normalising response bodies
  // ---------------------------------------------------------------------------

  /** The plural endpoints: a list body is the result, any other body is no results. */
  function AsList(data: Json): (r: seq<Json>)
    ensures data.JArr? ==> r == data.items
    ensures !data.JArr? ==> r == []
  {
    if data.JArr? then data.items else []
  }

  /** The version endpoint: a list is kept, a dict becomes a one-element list,
    * anything else is no results. */
  function AsVersionList(data: Json): (r: seq<Json>)
    ensures data.JArr? ==> r == data.items
    ensures data.JObj? ==> r == [data]
    ensures !data.JArr? && !data.JObj? ==> r == []
  {
    if data.JArr? then data.items
    else if data.JObj? then [data]
    else []
  }

  /** The version endpoint differs from the plural ones only on a dict body. */
  lemma VersionListAgreesOnNonDicts(data: Json)
    ensures !data.JObj? ==> AsVersionList(data) == AsList(data)
    ensures data.JObj? ==> AsVersionList(data) == [data] && AsList(data) == []
  {
  }

  // ---------------------------------------------------------------------------
  // Whole endpoint calls, as functions of the session oracle
  // ---------------------------------------------------------------------------

  /** `_make_request` on the JSON format and the base host, followed by `.json()`. */
  function Fetch(cfg: Config, get: HttpRequest -> Fetched, endpoint: string, query: Dict): (r: Result<Json>)
    ensures r.Err? ==> r.fault.HttpFailure?
  {
    match get(HttpRequest(RequestUrl(cfg, endpoint, JsonBody, false), WithCallerIdentity(cfg, query)))
    case Body(data) => Ok(data)
    case HttpError(msg) => Err(HttpFailure(msg))
  }

  /** A plural endpoint: the exception raised while building the query, if
    * any, and otherwise exactly one request with the tagged query, whose
    * failure is an `HttpFailure` and whose body is normalised by `AsList`. */
  function ListResult(cfg: Config, get: HttpRequest -> Fetched, endpoint: string, query: Result<Dict>)
    : (r: Result<seq<Json>>)
    ensures query.Err? ==> r == Err(query.fault)
    ensures query.Ok? ==>
              var sent := get(HttpRequest(RequestUrl(cfg, endpoint, JsonBody, false), WithCallerIdentity(cfg, query.value)));
              r == if sent.Body? then Ok(AsList(sent.data)) else Err(HttpFailure(sent.msg))
  {
    var q :- query;
    var data :- Fetch(cfg, get, endpoint, q);
    Ok(AsList(data))
  }

  /** `StringDBBridge.map_identifiers`. */
  function MapIdentifiersResult(cfg: Config, get: HttpRequest -> Fetched, ids: Json, species: Json, echoQuery: Json)
    : Result<seq<Json>>
  {
    ListResult(cfg, get, "get_string_ids", MapIdentifiersQuery(ids, species, echoQuery))
  }

  /** `StringDBBridge.get_network_interactions`. */
  function NetworkResult(cfg: Config, get: HttpRequest -> Fetched, ids: Json, species: Json,
                         requiredScore: Json, addNodes: Json, networkType: Json)
    : Result<seq<Json>>
  {
    ListResult(cfg, get, "network", NetworkQuery(ids, species, requiredScore, addNodes, networkType))
  }

  /** `StringDBBridge.get_functional_enrichment`. */
  function EnrichmentResult(cfg: Config, get: HttpRequest -> Fetched, ids: Json, species: Json, background: Json)
    : Result<seq<Json>>
  {
    ListResult(cfg, get, "enrichment", EnrichmentQuery(ids, species, background))
  }

  /** `StringDBBridge.get_version_info`: an empty query, tagged, on the base host. */
  function VersionResult(cfg: Config, get: HttpRequest -> Fetched): (r: Result<seq<Json>>)
    ensures var sent := get(HttpRequest(RequestUrl(cfg, "version", JsonBody, false),
                                        [(CALLER_IDENTITY, JStr(cfg.callerIdentity))]));
            r == if sent.Body? then Ok(AsVersionList(sent.data)) else Err(HttpFailure(sent.msg))
  {
    var tagged := [(CALLER_IDENTITY, JStr(cfg.callerIdentity))];
    assert !HasKey([], CALLER_IDENTITY) && [] + tagged == tagged;
    var data :- Fetch(cfg, get, "version", []);
    Ok(AsVersionList(data))
  }

  // ---------------------------------------------------------------------------
  // The imperative bridge
  // ---------------------------------------------------------------------------

  /** A query dict that `_make_request` updates in place. */
  class QueryParams {
    var entries: Dict

    constructor (init: Dict)
      ensures entries == init
    {
      entries := init;
    }

    /** `params[key] = value`. */
    method Put(key: string, value: Json)
      modifies this
      ensures entries == PyJson.Put(old(entries), key, value)
    {
      entries := PyJson.Put(entries, key, value);
    }
  }

  class Bridge {
    const cfg: Config
    /** The HTTP session. */
    const get: HttpRequest -> Fetched

    /** `StringDBBridge(config)`: no configuration means the defaults. */
    constructor (config: Option<Config>, session: HttpRequest -> Fetched)
      ensures cfg == (if config.Some? then config.value else DEFAULT_CONFIG)
      ensures get == session
    {
      cfg := if config.Some? then config.value else DEFAULT_CONFIG;
      get := session;
    }

    /** `_make_request`: tags the caller's dict in place, then issues the GET. */
    method MakeRequest(endpoint: string, fmt: OutputFormat, params: QueryParams, useVersionUrl: bool)
      returns (resp: Fetched)
      modifies params
      ensures params.entries == WithCallerIdentity(cfg, old(params.entries))
      ensures resp == get(HttpRequest(RequestUrl(cfg, endpoint, fmt, useVersionUrl), params.entries))
    {
      var base := if useVersionUrl then cfg.versionUrl else cfg.baseUrl;
      var url := base + "/" + fmt.Value() + "/" + endpoint;
      if !HasKey(params.entries, CALLER_IDENTITY) {
        params.Put(CALLER_IDENTITY, JStr(cfg.callerIdentity));
      }
      resp := get(HttpRequest(url, params.entries));
    }

    /** `self._make_request(endpoint, OutputFormat.JSON, params).json()`,
      * with a failed request as an `HttpFailure`. */
    method RequestJson(endpoint: string, params: QueryParams) returns (r: Result<Json>)
      modifies params
      ensures params.entries == WithCallerIdentity(cfg, old(params.entries))
      ensures r == Fetch(cfg, get, endpoint, old(params.entries))
    {
      var resp := MakeRequest(endpoint, JsonBody, params, false);
      r := if resp.Body? then Ok(resp.data) else Err(HttpFailure(resp.msg));
    }

    /** Building the query has already raised, or it is sent as one request. */
    method RequestList(endpoint: string, query: Result<Dict>) returns (r: Result<seq<Json>>)
      ensures r == ListResult(cfg, get, endpoint, query)
    {
      if query.Err? {
        return Err(query.fault);
      }
      var params := new QueryParams(query.value);
      var data := RequestJson(endpoint, params);
      r := if data.Ok? then Ok(AsList(data.value)) else Err(data.fault);
    }

    /** `StringDBBridge.map_identifiers`. */
    method MapIdentifiers(identifiers: Json, species: Json, echoQuery: Json)
      returns (r: Result<seq<Json>>)
      ensures r == MapIdentifiersResult(cfg, get, identifiers, species, echoQuery)
    {
      var query := MapIdentifiersQuery(identifiers, species, echoQuery);
      r := RequestList("get_string_ids", query);
    }

    /** `StringDBBridge.get_network_interactions`. */
    method GetNetworkInteractions(identifiers: Json, species: Json, requiredScore: Json,
                                  addNodes: Json, networkType: Json)
      returns (r: Result<seq<Json>>)
      ensures r == NetworkResult(cfg, get, identifiers, species, requiredScore, addNodes, networkType)
    {
      var query := NetworkQuery(identifiers, species, requiredScore, addNodes, networkType);
      r := RequestList("network", query);
    }

    /** `StringDBBridge.get_functional_enrichment`. */
    method GetFunctionalEnrichment(identifiers: Json, species: Json, background: Json)
      returns (r: Result<seq<Json>>)
      ensures r == EnrichmentResult(cfg, get, identifiers, species, background)
    {
      var query := EnrichmentQuery(identifiers, species, background);
      r := RequestList("enrichment", query);
    }

    method GetVersionInfo() returns (r: Result<seq<Json>>)
      ensures r == VersionResult(cfg, get)
    {
      var params := new QueryParams([]);
      var data := RequestJson("version", params);
      r := if data.Ok? then Ok(AsVersionList(data.value)) else Err(data.fault);
    }
  }
}

=== FILE: properties.dfy ===
/**
 * What the MCP server promises its client, proved about the model in
 * `McpServer`: silence for notifications, one well-formed JSON-RPC response
 * per request, tool failures reported as `isError` results, the tool
 * catalogue, the `initialize` handshake and the reply stream of a whole run.
 */
module ServerProperties {
  import opened PyJson
  import opened StringBridge
  import opened McpServer

  // ---------------------------------------------------------------------------
  // Reading a request
  // ---------------------------------------------------------------------------

  function IdOf(req: Dict): Json {
    GetOr(req, "id", JNull)
  }

  function MethodOf(req: Dict): Json {
    GetOr(req, "method", JNull)
  }

  function ParamsOf(req: Dict): Json {
    GetOr(req, "params", JObj([]))
  }

  /** The methods the server answers with a result. */
  predicate KnownMethod(m: Json) {
    m in {JStr("initialize"), JStr("tools/list"), JStr("tools/call"), JStr("resources/list"), JStr("prompts/list")}
  }

  /** The ways a decoded request dict escapes the loop: `initialize` or
    * `tools/call` whose `params` is not a dict, so that `params.get` raises
    * outside any `try`. */
  predicate CrashingRequest(req: Dict) {
    && IdOf(req) != JNull
    && (MethodOf(req) == JStr("initialize") || MethodOf(req) == JStr("tools/call"))
    && !ParamsOf(req).JObj?
  }

  /** A JSON-RPC 2.0 response: version, id, and exactly one of error and result. */
  predicate IsResponse(reply: Json, id: Json) {
    && reply.JObj?
    && Get(reply.entries, "jsonrpc") == Some(JStr(JSONRPC_VERSION))
    && Get(reply.entries, "id") == Some(id)
    && HasKey(reply.entries, "error") != HasKey(reply.entries, "result")
  }

  // ---------------------------------------------------------------------------
  // Responses
  // ---------------------------------------------------------------------------

  /** `_send` writes nothing for a null id and exactly one response otherwise:
    * version "2.0", the request's id, the error when there is one and the
    * result (or `{}` for a falsy result) when there is none. */
  lemma {:induction false} ResponseShape(id: Json, result: Json, error: Json)
    ensures id == JNull ==> Emitted(id, result, error) == []
    ensures id != JNull ==> Emitted(id, result, error) == [Response(id, result, error)]
    ensures IsResponse(Response(id, result, error), id)
    ensures HasKey(Response(id, result, error).entries, "error") <==> error != JNull
    ensures error != JNull ==> Get(Response(id, result, error).entries, "error") == Some(error)
    ensures error == JNull ==>
              Get(Response(id, result, error).entries, "result") == Some(if Truthy(result) then result else JObj([]))
  {
    var head := [("jsonrpc", JStr(JSONRPC_VERSION)), ("id", id)];
    GetLiteral2(head[0], head[1], "jsonrpc");
    GetLiteral2(head[0], head[1], "id");
    GetLiteral2(head[0], head[1], "error");
    GetLiteral2(head[0], head[1], "result");
    var last := if error != JNull then ("error", error) else ("result", if Truthy(result) then result else JObj([]));
    assert Response(id, result, error).entries == head + [last];
    GetAppend(head, last.0, last.1, "jsonrpc");
    GetAppend(head, last.0, last.1, "id");
    GetAppend(head, last.0, last.1, "error");
    GetAppend(head, last.0, last.1, "result");
  }

  /** A message without an id (or with a null id), `notifications/initialized`
    * included, is never answered; any other message is answered or raises. */
  lemma NotificationIsSilent(h: Host, req: Dict)
    ensures Dispatch(h, req) == Ok(None) <==> IdOf(req) == JNull
  {
  }

  /** The only request dicts that escape the loop are `initialize` and
    * `tools/call` with params that are not a dict, and they raise the
    * AttributeError of `params.get`. */
  lemma {:induction false} OnlyBadParamsRaise(h: Host, req: Dict)
    ensures Dispatch(h, req).Err? <==> CrashingRequest(req)
    ensures CrashingRequest(req) ==> Dispatch(h, req) == Err(NoGetAttribute(ParamsOf(req)))
  {
  }

  /** A request (non-null id) that does not raise is answered with what its
    * handler passes to `_send`. */
  lemma {:induction false} DispatchResponds(h: Host, req: Dict)
    requires IdOf(req) != JNull && !CrashingRequest(req)
    ensures Answer(h, MethodOf(req), ParamsOf(req)).Ok?
    ensures Dispatch(h, req) ==
              Ok(Some(Response(IdOf(req), Answer(h, MethodOf(req), ParamsOf(req)).value.0,
                               Answer(h, MethodOf(req), ParamsOf(req)).value.1)))
  {
  }

  /** A request (non-null id) that does not raise gets exactly one response,
    * carrying its own id. */
  lemma {:induction false} RequestGetsOneResponse(h: Host, req: Dict)
    requires IdOf(req) != JNull && !CrashingRequest(req)
    ensures Dispatch(h, req).Ok? && Dispatch(h, req).value.Some?
    ensures IsResponse(Dispatch(h, req).value.value, IdOf(req))
  {
    DispatchResponds(h, req);
    var sent := Answer(h, MethodOf(req), ParamsOf(req)).value;
    ResponseShape(IdOf(req), sent.0, sent.1);
  }

  /** An unknown method is answered with error -32601, "Method not found: <method>". */
  lemma {:induction false} UnknownMethodReply(h: Host, req: Dict)
    requires IdOf(req) != JNull && !KnownMethod(MethodOf(req))
    ensures Dispatch(h, req) == Ok(Some(Response(IdOf(req), JNull, MethodNotFound(MethodOf(req)))))
    ensures Get(MethodNotFound(MethodOf(req)).entries, "code") == Some(JInt(-32601))
    ensures Get(MethodNotFound(MethodOf(req)).entries, "message") ==
              Some(JStr("Method not found: " + Str(MethodOf(req))))
    ensures Get(Dispatch(h, req).value.value.entries, "error") == Some(MethodNotFound(MethodOf(req)))
    ensures !HasKey(Dispatch(h, req).value.value.entries, "result")
  {
    var m := MethodOf(req);
    var code, message := ("code", JInt(METHOD_NOT_FOUND)), ("message", JStr("Method not found: " + Str(m)));
    GetLiteral2(code, message, "code");
    GetLiteral2(code, message, "message");
    ResponseShape(IdOf(req), JNull, MethodNotFound(m));
  }

  /** A known method's handler passes a result and no error to `_send`; the
    * two stubs pass an empty resource or prompt list. */
  lemma {:induction false} KnownMethodAnswer(h: Host, meth: Json, params: Json)
    requires KnownMethod(meth) && Answer(h, meth, params).Ok?
    ensures Answer(h, meth, params).value.1 == JNull
    ensures meth == JStr("resources/list") ==> Answer(h, meth, params).value.0 == JObj([("resources", JArr([]))])
    ensures meth == JStr("prompts/list") ==> Answer(h, meth, params).value.0 == JObj([("prompts", JArr([]))])
  {
  }

  /** A request with a known method that does not raise is answered with a
    * result and never with an error. */
  lemma {:induction false} KnownMethodReply(h: Host, req: Dict)
    requires IdOf(req) != JNull && KnownMethod(MethodOf(req)) && !CrashingRequest(req)
    ensures Dispatch(h, req).Ok? && Dispatch(h, req).value.Some?
    ensures HasKey(Dispatch(h, req).value.value.entries, "result")
    ensures !HasKey(Dispatch(h, req).value.value.entries, "error")
  {
    DispatchResponds(h, req);
    var sent := Answer(h, MethodOf(req), ParamsOf(req)).value;
    KnownMethodAnswer(h, MethodOf(req), ParamsOf(req));
    ResponseShape(IdOf(req), sent.0, sent.1);
  }

  /** `resources/list` and `prompts/list` are answered with
    * `{"resources": []}` and `{"prompts": []}` (see `StubResults`). */
  lemma {:induction false} StubReplies(h: Host, req: Dict)
    requires IdOf(req) != JNull
    ensures MethodOf(req) == JStr("resources/list") ==>
              Dispatch(h, req) == Ok(Some(Response(IdOf(req), JObj([("resources", JArr([]))]), JNull)))
    ensures MethodOf(req) == JStr("prompts/list") ==>
              Dispatch(h, req) == Ok(Some(Response(IdOf(req), JObj([("prompts", JArr([]))]), JNull)))
  {
  }

  /** The stubs' results are sent as they are, with no error. */
  lemma {:induction false} StubResults(id: Json)
    requires id != JNull
    ensures Get(Response(id, JObj([("resources", JArr([]))]), JNull).entries, "result") ==
              Some(JObj([("resources", JArr([]))]))
    ensures Get(Response(id, JObj([("prompts", JArr([]))]), JNull).entries, "result") ==
              Some(JObj([("prompts", JArr([]))]))
    ensures !HasKey(Response(id, JObj([("resources", JArr([]))]), JNull).entries, "error")
    ensures !HasKey(Response(id, JObj([("prompts", JArr([]))]), JNull).entries, "error")
  {
    ResponseShape(id, JObj([("resources", JArr([]))]), JNull);
    ResponseShape(id, JObj([("prompts", JArr([]))]), JNull);
  }

  // ---------------------------------------------------------------------------
  // tools/call
  // ---------------------------------------------------------------------------

  /** A tool result on the wire: the `isError` flag and one text block. */
  lemma {:induction false} ToolResultShape(r: ToolResult)
    ensures Get(r.ToJson().entries, "isError") == Some(JBool(r.isError))
    ensures Get(r.ToJson().entries, "content") == Some(JArr([TextBlock(r.text)]))
    ensures Get(TextBlock(r.text).entries, "type") == Some(JStr("text"))
    ensures Get(TextBlock(r.text).entries, "text") == Some(JStr(r.text))
    ensures Truthy(r.ToJson())
  {
    var flag, content := ("isError", JBool(r.isError)), ("content", JArr([TextBlock(r.text)]));
    GetLiteral2(flag, content, "isError");
    GetLiteral2(flag, content, "content");
    var kind, text := ("type", JStr("text")), ("text", JStr(r.text));
    GetLiteral2(kind, text, "type");
    GetLiteral2(kind, text, "text");
  }

  /** `tools/call` with dict params is answered with a result and never
    * with a JSON-RPC error: every failure is an `isError` result. With params
    * that are not a dict it raises out of the loop, unanswered. */
  lemma {:induction false} ToolCallReply(h: Host, req: Dict)
    requires IdOf(req) != JNull && MethodOf(req) == JStr("tools/call")
    ensures ParamsOf(req).JObj? ==>
              Dispatch(h, req) == Ok(Some(Response(IdOf(req), CallTool(h, ParamsOf(req)).ToJson(), JNull)))
    ensures ParamsOf(req).JObj? ==>
              && Get(Dispatch(h, req).value.value.entries, "result") == Some(CallTool(h, ParamsOf(req)).ToJson())
              && !HasKey(Dispatch(h, req).value.value.entries, "error")
    ensures !ParamsOf(req).JObj? ==> Dispatch(h, req) == Err(NoGetAttribute(ParamsOf(req)))
  {
    if ParamsOf(req).JObj? {
      ToolResultShape(CallTool(h, ParamsOf(req)));
      ResponseShape(IdOf(req), CallTool(h, ParamsOf(req)).ToJson(), JNull);
    }
  }

  /** Every failed tool call is reported as `isError` with text "Error: ...",
    * and every successful one is not. */
  lemma ToolErrorsArePayloads(h: Host, params: Json)
    ensures CallTool(h, params).isError <==>
              !params.JObj? || ToolNamed(GetOr(params.entries, "name", JNull)).None? ||
              RunTool(h, ToolNamed(GetOr(params.entries, "name", JNull)).value,
                      GetOr(params.entries, "arguments", JObj([]))).Err?
    ensures CallTool(h, params).isError ==>
              exists msg :: CallTool(h, params).text == "Error: " + msg
  {
    var r := CallTool(h, params);
    if r.isError {
      var msg := r.text[|"Error: "|..];
      assert r.text == "Error: " + msg;
    }
  }

  /** An unknown tool name gives "Error: Unknown tool: <name>". */
  lemma UnknownToolPayload(h: Host, params: Json)
    requires params.JObj? && ToolNamed(GetOr(params.entries, "name", JNull)).None?
    ensures CallTool(h, params) == ErrorResult("Unknown tool: " + Str(GetOr(params.entries, "name", JNull)))
  {
  }

  /** Missing or empty identifiers are refused before the bridge is called:
    * the outcome is the same whatever the HTTP session and configuration are. */
  lemma EmptyIdentifiersSkipBridge(h1: Host, h2: Host, t: Tool, arguments: Json)
    requires t != VersionTool && arguments.JObj?
    requires !Truthy(GetOr(arguments.entries, "identifiers", JArr([])))
    ensures RunTool(h1, t, arguments) == RunTool(h2, t, arguments) == Err(ValueFault(IDENTIFIERS_REQUIRED))
    ensures ToolCallResult(h1, JStr(t.Name()), arguments) == ErrorResult(IDENTIFIERS_REQUIRED)
  {
    ToolNamedName(t);
  }

  /** An HTTP failure in the bridge gives "Error: HTTP request failed: <reason>". */
  lemma BridgeFailurePayload(h: Host, t: Tool, arguments: Json, reason: string)
    requires RunTool(h, t, arguments) == Err(HttpFailure(reason))
    ensures ToolCallResult(h, JStr(t.Name()), arguments) == ErrorResult("HTTP request failed: " + reason)
  {
    ToolNamedName(t);
  }

  /** Arguments that are not a dict give the internal-error text of the
    * AttributeError `arguments.get` raises inside the `try`. */
  lemma NonDictArguments(h: Host, t: Tool, arguments: Json)
    requires t != VersionTool && !arguments.JObj?
    ensures ToolCallResult(h, JStr(t.Name()), arguments) ==
              ErrorResult("Internal error: " + ("'" + TypeName(arguments) + "' object has no attribute 'get'"))
  {
    ToolNamedName(t);
  }

  /** A successful call pretty-prints the bridge's list. */
  lemma SuccessPayload(h: Host, t: Tool, arguments: Json, data: seq<Json>)
    requires RunTool(h, t, arguments) == Ok(data)
    ensures ToolCallResult(h, JStr(t.Name()), arguments) == SuccessResult(h.dumps, JArr(data))
    ensures ToolCallResult(h, JStr(t.Name()), arguments) == ToolResult(false, h.dumps(JArr(data)))
  {
    ToolNamedName(t);
  }

  // ---------------------------------------------------------------------------
  // tools/list
  // ---------------------------------------------------------------------------

  /** Tool names select the tools they name, and only those. */
  lemma ToolNamedName(t: Tool)
    ensures ToolNamed(JStr(t.Name())) == Some(t)
  {
  }

  lemma ToolNamedOnlyNames(name: Json, t: Tool)
    requires ToolNamed(name) == Some(t)
    ensures name == JStr(t.Name())
  {
  }

  /** Each descriptor gives its schema under both `parameters` and
    * `inputSchema`, and every tool but `get_version_info` requires
    * `identifiers`. */
  lemma {:induction false} DescriptorSchemas(t: Tool)
    ensures Get(Descriptor(t).entries, "name") == Some(JStr(t.Name()))
    ensures Get(Descriptor(t).entries, "parameters") == Some(t.Schema())
    ensures Get(Descriptor(t).entries, "inputSchema") == Some(t.Schema())
    ensures HasKey(t.Schema().entries, "required") <==> t != VersionTool
    ensures t != VersionTool ==> Get(t.Schema().entries, "required") == Some(JArr([JStr("identifiers")]))
  {
    var name, description := ("name", JStr(t.Name())), ("description", JStr(t.Description()));
    var withParams := [name, description, ("parameters", t.Schema())];
    assert Descriptor(t).entries == withParams + [("inputSchema", t.Schema())];
    GetLiteral3(name, description, ("parameters", t.Schema()), "name");
    GetAppend(withParams, "inputSchema", t.Schema(), "name");
    GetLiteral3(name, description, ("parameters", t.Schema()), "parameters");
    GetAppend(withParams, "inputSchema", t.Schema(), "parameters");
    var base := [("type", JStr("object")), ("properties", JObj(t.Properties()))];
    GetLiteral2(base[0], base[1], "required");
    if t != VersionTool {
      assert t.Schema().entries == base + [("required", JArr([JStr("identifiers")]))];
      GetAppend(base, "required", JArr([JStr("identifiers")]), "required");
    } else {
      assert t.Schema().entries == base;
    }
  }

  /** `tools/list` lists the four tools in order, and each listed name
    * selects its tool in `tools/call`. */
  lemma ToolsListed(h: Host, req: Dict)
    requires IdOf(req) != JNull && MethodOf(req) == JStr("tools/list")
    ensures Dispatch(h, req) == Ok(Some(Response(IdOf(req), ToolsListResult(), JNull)))
    ensures Get(ToolsListResult().entries, "tools") ==
              Some(JArr([Descriptor(MapIdentifiersTool), Descriptor(NetworkTool),
                         Descriptor(EnrichmentTool), Descriptor(VersionTool)]))
  {
  }

  // ---------------------------------------------------------------------------
  // initialize
  // ---------------------------------------------------------------------------

  /** `initialize` echoes the client's protocol version (default
    * "2025-03-26"), advertises executable tools and names the server. */
  lemma {:induction false} InitializeHandshake(params: Json)
    ensures InitializeResult(params).Ok? <==> params.JObj?
    ensures !params.JObj? ==> InitializeResult(params) == Err(NoGetAttribute(params))
    ensures params.JObj? ==>
              var r := InitializeResult(params).value;
              && r.JObj?
              && Get(r.entries, "protocolVersion") ==
                   Some(if HasKey(params.entries, "protocolVersion") then Get(params.entries, "protocolVersion").value
                        else JStr(DEFAULT_PROTOCOL_VERSION))
              && Get(r.entries, "capabilities") == Some(JObj([("tools", JObj([("executable", JBool(true))]))]))
              && Get(r.entries, "serverInfo") == Some(JObj([("name", JStr("string-mcp")), ("version", JStr("0.2.0"))]))
  {
    if params.JObj? {
      var version := ("protocolVersion", GetOr(params.entries, "protocolVersion", JStr(DEFAULT_PROTOCOL_VERSION)));
      var caps := ("capabilities", JObj([("tools", JObj([("executable", JBool(true))]))]));
      var info := ("serverInfo", JObj([("name", JStr(SERVER_NAME)), ("version", JStr(SERVER_VERSION))]));
      assert InitializeResult(params).value.entries == [version, caps, info];
      GetLiteral3(version, caps, info, "protocolVersion");
      GetLiteral3(version, caps, info, "capabilities");
      GetLiteral3(version, caps, info, "serverInfo");
    }
  }

  // ---------------------------------------------------------------------------
  // The finding: tools/call with params that are not a dict
  // ---------------------------------------------------------------------------

  /** As written, `tools/call` whose `params` is a list raises the
    * AttributeError of `params.get("name")` out of the handler, which ends
    * the server loop. */
  lemma CallToolAsWrittenRaises(h: Host)
    ensures CallToolAsWritten(h, JArr([])) == Err(InternalFault("'" + "list" + "' object has no attribute 'get'"))
    ensures CallToolAsWritten(h, JNull) == Err(InternalFault("'" + "NoneType" + "' object has no attribute 'get'"))
  {
  }

  /** At the level of the loop: a `tools/call` line with `"params": null`
    * raises, and nothing after it is read or answered. */
  lemma {:induction false} BadToolCallEndsRun(h: Host, loads: string -> Option<Json>, st: RunState,
                                             raw: string, rest: seq<string>)
    requires st.raised.None? && Strip(raw) != ""
    requires loads(Strip(raw)) == Some(JObj([("id", JInt(1)), ("method", JStr("tools/call")), ("params", JNull)]))
    ensures RunLines(h, loads, st, [raw] + rest) == RunState(JInt(1), st.out, Some(NoGetAttribute(JNull)))
  {
    var req := [("id", JInt(1)), ("method", JStr("tools/call")), ("params", JNull)];
    GetLiteral3(req[0], req[1], req[2], "id");
    GetLiteral3(req[0], req[1], req[2], "method");
    GetLiteral3(req[0], req[1], req[2], "params");
    assert [raw][..0] == [];
    assert RunLines(h, loads, st, [raw]) == StepLine(h, loads, st, raw);
    RunStopsAfterRaise(h, loads, st, [raw], rest);
  }

  /** The corrected handler answers the same input with an `isError` result,
    * and agrees with the code as written on every dict. */
  lemma CallToolCorrected(h: Host, params: Json)
    ensures !params.JObj? ==>
              CallTool(h, params) == ErrorResult("Internal error: " + ("'" + TypeName(params) + "' object has no attribute 'get'"))
    ensures CallToolAsWritten(h, params).Ok? <==> params.JObj?
    ensures params.JObj? ==> CallToolAsWritten(h, params) == Ok(CallTool(h, params))
  {
  }

  // ---------------------------------------------------------------------------
  // The loop
  // ---------------------------------------------------------------------------

  /** What one line does to the loop, independently of the run: it raises,
    * or it is a request with a (non-null) id to answer, or neither. */
  predicate LineRaises(loads: string -> Option<Json>, raw: string) {
    var line := Strip(raw);
    line != "" && loads(line).Some? &&
    (!loads(line).value.JObj? || CrashingRequest(loads(line).value.entries))
  }

  function AnsweredId(loads: string -> Option<Json>, raw: string): Option<Json> {
    var line := Strip(raw);
    if line != "" && loads(line).Some? && loads(line).value.JObj? && IdOf(loads(line).value.entries) != JNull
       && !CrashingRequest(loads(line).value.entries)
    then Some(IdOf(loads(line).value.entries))
    else None
  }

  /** The ids of the requests answered from `lines`, up to the first line that raises. */
  function AnsweredIds(loads: string -> Option<Json>, lines: seq<string>): seq<Json> {
    if |lines| == 0 then []
    else
      var front := lines[..|lines| - 1];
      if !NoLineRaises(loads, front) then AnsweredIds(loads, front)
      else AnsweredIds(loads, front) + (match AnsweredId(loads, lines[|lines| - 1])
                                        case Some(id) => [id]
                                        case None => [])
  }

  predicate NoLineRaises(loads: string -> Option<Json>, lines: seq<string>) {
    forall i :: 0 <= i < |lines| ==> !LineRaises(loads, lines[i])
  }

  /** The id each written message carries. */
  function ReplyIds(out: seq<Json>): seq<Json> {
    if |out| == 0 then []
    else ReplyIds(out[..|out| - 1]) + [if out[|out| - 1].JObj? then GetOr(out[|out| - 1].entries, "id", JNull) else JNull]
  }

  predicate AllResponses(out: seq<Json>) {
    forall i :: 0 <= i < |out| ==> out[i].JObj? && Get(out[i].entries, "jsonrpc") == Some(JStr(JSONRPC_VERSION)) &&
                                   HasKey(out[i].entries, "error") != HasKey(out[i].entries, "result")
  }

  /** One line raises exactly when `LineRaises` says so. */
  lemma {:induction false} StepLineRaises(h: Host, loads: string -> Option<Json>, st: RunState, raw: string)
    requires st.raised.None?
    ensures StepLine(h, loads, st, raw).raised.Some? <==> LineRaises(loads, raw)
    ensures StepLine(h, loads, st, raw).raised.Some? ==> StepLine(h, loads, st, raw).out == st.out
  {
    var line := Strip(raw);
    if line != "" && loads(line).Some? && loads(line).value.JObj? {
      OnlyBadParamsRaise(h, loads(line).value.entries);
    }
  }

  /** What a line that does not raise writes: the response to its request
    * when it is answered, nothing otherwise. */
  function LineReply(h: Host, loads: string -> Option<Json>, raw: string): seq<Json>
    requires AnsweredId(loads, raw).Some?
  {
    var req := loads(Strip(raw)).value.entries;
    if Dispatch(h, req).Ok? && Dispatch(h, req).value.Some? then [Dispatch(h, req).value.value] else []
  }

  lemma {:induction false} StepLineWrites(h: Host, loads: string -> Option<Json>, st: RunState, raw: string)
    requires st.raised.None? && !LineRaises(loads, raw)
    ensures AnsweredId(loads, raw).None? ==> StepLine(h, loads, st, raw).out == st.out
    ensures AnsweredId(loads, raw).Some? ==> StepLine(h, loads, st, raw).out == st.out + LineReply(h, loads, raw)
  {
    var line := Strip(raw);
    if line != "" && loads(line).Some? && loads(line).value.JObj? {
      OnlyBadParamsRaise(h, loads(line).value.entries);
    }
  }

  /** An answered line writes exactly one response, with its request's id. */
  lemma {:induction false} LineReplyIsResponse(h: Host, loads: string -> Option<Json>, raw: string)
    requires AnsweredId(loads, raw).Some?
    ensures |LineReply(h, loads, raw)| == 1
    ensures IsResponse(LineReply(h, loads, raw)[0], AnsweredId(loads, raw).value)
  {
    RequestGetsOneResponse(h, loads(Strip(raw)).value.entries);
  }

  lemma NoLineRaisesSplit(loads: string -> Option<Json>, lines: seq<string>)
    requires |lines| > 0
    ensures NoLineRaises(loads, lines) <==>
              NoLineRaises(loads, lines[..|lines| - 1]) && !LineRaises(loads, lines[|lines| - 1])
  {
    var front := lines[..|lines| - 1];
    if NoLineRaises(loads, front) && !LineRaises(loads, lines[|lines| - 1]) {
      forall i | 0 <= i < |lines| ensures !LineRaises(loads, lines[i]) {
        if i < |front| {
          assert lines[i] == front[i];
        }
      }
    }
    if NoLineRaises(loads, lines) {
      forall i | 0 <= i < |front| ensures !LineRaises(loads, front[i]) {
        assert lines[i] == front[i];
      }
    }
  }

  /** A run ends with an exception exactly when one of its lines raises. */
  lemma {:induction false} RunRaises(h: Host, loads: string -> Option<Json>, st: RunState, lines: seq<string>)
    requires st.raised.None?
    ensures RunLines(h, loads, st, lines).raised.Some? <==> !NoLineRaises(loads, lines)
  {
    if |lines| > 0 {
      var front := lines[..|lines| - 1];
      RunRaises(h, loads, st, front);
      NoLineRaisesSplit(loads, lines);
      var before := RunLines(h, loads, st, front);
      if before.raised.None? {
        StepLineRaises(h, loads, before, lines[|lines| - 1]);
      }
    }
  }

  /** The ids a line that does not raise adds to the output. */
  lemma {:induction false} StepReplyIds(h: Host, loads: string -> Option<Json>, st: RunState, raw: string)
    requires st.raised.None? && !LineRaises(loads, raw)
    ensures ReplyIds(StepLine(h, loads, st, raw).out) ==
              ReplyIds(st.out) + (match AnsweredId(loads, raw) case Some(id) => [id] case None => [])
  {
    StepLineWrites(h, loads, st, raw);
    if AnsweredId(loads, raw).Some? {
      LineReplyIsResponse(h, loads, raw);
      var reply := LineReply(h, loads, raw)[0];
      assert GetOr(reply.entries, "id", JNull) == AnsweredId(loads, raw).value;
      assert ReplyIds(st.out + [reply]) == ReplyIds(st.out) + [AnsweredId(loads, raw).value];
    }
  }

  /** The messages a run writes carry, in order, the ids of the requests
    * read before the first line that raises. */
  lemma {:induction false} RunReplyIds(h: Host, loads: string -> Option<Json>, requestId: Json, lines: seq<string>)
    ensures ReplyIds(RunLines(h, loads, RunState(requestId, [], None), lines).out) == AnsweredIds(loads, lines)
  {
    var start := RunState(requestId, [], None);
    if |lines| > 0 {
      var front := lines[..|lines| - 1];
      var raw := lines[|lines| - 1];
      RunReplyIds(h, loads, requestId, front);
      RunRaises(h, loads, start, front);
      var before := RunLines(h, loads, start, front);
      if before.raised.None? {
        StepLineRaises(h, loads, before, raw);
        if !LineRaises(loads, raw) {
          StepReplyIds(h, loads, before, raw);
        }
      }
    }
  }

  /** Everything a run writes is a JSON-RPC 2.0 response with exactly one of
    * `error` and `result`. */
  lemma {:induction false} RunWritesResponses(h: Host, loads: string -> Option<Json>, st: RunState, lines: seq<string>)
    requires st.raised.None? && AllResponses(st.out)
    ensures AllResponses(RunLines(h, loads, st, lines).out)
  {
    if |lines| > 0 {
      var front := lines[..|lines| - 1];
      var raw := lines[|lines| - 1];
      RunWritesResponses(h, loads, st, front);
      var before := RunLines(h, loads, st, front);
      if before.raised.None? {
        StepLineRaises(h, loads, before, raw);
        if !LineRaises(loads, raw) {
          StepLineWrites(h, loads, before, raw);
          if AnsweredId(loads, raw).Some? {
            LineReplyIsResponse(h, loads, raw);
          }
          var after := StepLine(h, loads, before, raw);
          forall i | 0 <= i < |after.out|
            ensures after.out[i].JObj? && Get(after.out[i].entries, "jsonrpc") == Some(JStr(JSONRPC_VERSION)) &&
                    HasKey(after.out[i].entries, "error") != HasKey(after.out[i].entries, "result")
          {
            if i < |before.out| {
              assert after.out[i] == before.out[i];
            }
          }
        }
      }
    }
  }
}

=== FILE: pyjson.dfy ===
/**
 * Values as `json.loads` produces them, and the handful of Python built-ins
 * the bridge applies to them: `dict.get`, `d[k] = v`, truthiness, `str`,
 * `repr`, `int(...)` and `str.join`.
 *
 * Python's `None` and JSON's `null` are the same value after decoding, so
 * `JNull` stands for both.  A dict is a sequence of (key, value) entries in
 * insertion order.  Floating-point numbers are not part of this model.
 */
module PyJson {

  datatype Option<+T> = None | Some(value: T)

  /** The exceptions the tool-call boundary tells apart: the `requests`
    * family, `ValueError`, and every other exception. */
  datatype Fault = HttpFailure(msg: string) | ValueFault(msg: string) | InternalFault(msg: string)

  datatype Result<+T> = Ok(value: T) | Err(fault: Fault) {
    predicate IsFailure() {
      Err?
    }

    function PropagateFailure<U>(): Result<U>
      requires Err?
    {
      Err(fault)
    }

    function Extract(): T
      requires Ok?
    {
      value
    }
  }

  datatype Json =
    | JNull
    | JBool(b: bool)
    | JInt(n: int)
    | JStr(s: string)
    | JArr(items: seq<Json>)
    | JObj(entries: Dict)

  type Dict = seq<(string, Json)>

  // ---------------------------------------------------------------------------
  // Dictionaries
  // ---------------------------------------------------------------------------

  /** `key in d`. */
  predicate HasKey(d: Dict, key: string) {
    Get(d, key).Some?
  }

  /** `d[key]` when the key is present: `json.loads` keeps the LAST of
    * duplicate keys, and a dict built by assignment never holds a key twice,
    * so the last entry with that key is the one that counts. */
  function Get(d: Dict, key: string): Option<Json> {
    if |d| == 0 then None
    else if d[|d| - 1].0 == key then Some(d[|d| - 1].1)
    else Get(d[..|d| - 1], key)
  }

  /** A key is present exactly when some entry carries it. */
  lemma {:induction false} HasKeyIff(d: Dict, key: string)
    ensures HasKey(d, key) <==> exists i :: 0 <= i < |d| && d[i].0 == key
  {
    if |d| > 0 && d[|d| - 1].0 != key {
      var e := d[..|d| - 1];
      HasKeyIff(e, key);
      if exists i :: 0 <= i < |d| && d[i].0 == key {
        var i :| 0 <= i < |d| && d[i].0 == key;
        assert e[i].0 == key;
      }
    }
  }

  /** A lookup finds the last entry with that key. */
  lemma {:induction false} GetIsLastEntry(d: Dict, key: string)
    requires HasKey(d, key)
    ensures exists i :: 0 <= i < |d| && d[i] == (key, Get(d, key).value) &&
                        forall j :: i < j < |d| ==> d[j].0 != key
  {
    var n := |d| - 1;
    if d[n].0 == key {
      assert d[n] == (key, Get(d, key).value);
    } else {
      var e := d[..n];
      GetIsLastEntry(e, key);
      var i :| 0 <= i < |e| && e[i] == (key, Get(e, key).value) && forall j :: i < j < |e| ==> e[j].0 != key;
      assert d[i] == (key, Get(d, key).value);
      forall j | i < j < |d| ensures d[j].0 != key {
        if j < n {
          assert d[j] == e[j];
        }
      }
    }
  }

  /** `d.get(key, default)`. */
  function GetOr(d: Dict, key: string, default: Json): (r: Json)
    ensures HasKey(d, key) ==> Some(r) == Get(d, key)
    ensures !HasKey(d, key) ==> r == default
  {
    match Get(d, key)
    case Some(v) => v
    case None => default
  }

  /** The AttributeError raised by calling `.get` on a value that is not a dict. */
  function NoGetAttribute(j: Json): Fault {
    InternalFault("'" + TypeName(j) + "' object has no attribute 'get'")
  }

  /** `j.get(key, default)` on any decoded value: only a dict has `.get`. */
  function GetFrom(j: Json, key: string, default: Json): (r: Result<Json>)
    ensures r.Ok? <==> j.JObj?
    ensures j.JObj? ==> r.value == GetOr(j.entries, key, default)
    ensures !j.JObj? ==> r.fault == NoGetAttribute(j)
  {
    if j.JObj? then Ok(GetOr(j.entries, key, default)) else Err(NoGetAttribute(j))
  }

  /** Every entry whose key is `key` now carries `value` (see `ReplaceAt`). */
  function Replace(d: Dict, key: string, value: Json): (r: Dict)
    ensures |r| == |d|
  {
    if |d| == 0 then []
    else
      var last := d[|d| - 1];
      Replace(d[..|d| - 1], key, value) + [if last.0 == key then (key, value) else last]
  }

  lemma {:induction false} ReplaceAt(d: Dict, key: string, value: Json, i: int)
    requires 0 <= i < |d|
    ensures Replace(d, key, value)[i] == if d[i].0 == key then (key, value) else d[i]
  {
    if i < |d| - 1 {
      ReplaceAt(d[..|d| - 1], key, value, i);
    }
  }

  lemma {:induction false} GetReplace(d: Dict, key: string, value: Json, k: string)
    ensures Get(Replace(d, key, value), k) ==
            if k == key && HasKey(d, key) then Some(value) else Get(d, k)
  {
    if |d| > 0 {
      var r := Replace(d, key, value);
      assert r[..|r| - 1] == Replace(d[..|d| - 1], key, value);
      GetReplace(d[..|d| - 1], key, value, k);
    }
  }

  /** `d[key] = value`: an existing key keeps its position and takes the new
    * value, a new key goes last (see `GetPut`, `PutKeepsPositions` and
    * `PutNewKeyLast`). */
  function Put(d: Dict, key: string, value: Json): Dict {
    if HasKey(d, key) then Replace(d, key, value) else d + [(key, value)]
  }

  /** Looking up in a dict with one more entry at the end. */
  lemma GetAppend(d: Dict, key: string, value: Json, k: string)
    ensures Get(d + [(key, value)], k) == if k == key then Some(value) else Get(d, k)
  {
    assert (d + [(key, value)])[..|d|] == d;
  }

  /** Lookups in a two-entry dict literal. */
  lemma GetLiteral2(a: (string, Json), b: (string, Json), k: string)
    ensures Get([a, b], k) == if k == b.0 then Some(b.1) else if k == a.0 then Some(a.1) else None
  {
    assert [a, b] == [a] + [b];
    assert [a] == [] + [a];
    GetAppend([a], b.0, b.1, k);
    GetAppend([], a.0, a.1, k);
  }

  /** Lookups in a three-entry dict literal. */
  lemma GetLiteral3(a: (string, Json), b: (string, Json), c: (string, Json), k: string)
    ensures Get([a, b, c], k) ==
            if k == c.0 then Some(c.1) else if k == b.0 then Some(b.1) else if k == a.0 then Some(a.1) else None
  {
    assert [a, b, c] == [a, b] + [c];
    GetAppend([a, b], c.0, c.1, k);
    GetLiteral2(a, b, k);
  }

  /** After `d[key] = value`, looking up `key` gives `value` and looking up
    * any other key gives what it gave before. */
  lemma GetPut(d: Dict, key: string, value: Json, k: string)
    ensures Get(Put(d, key, value), k) == if k == key then Some(value) else Get(d, k)
    ensures HasKey(Put(d, key, value), k) <==> HasKey(d, k) || k == key
  {
    if HasKey(d, key) {
      GetReplace(d, key, value, k);
    } else {
      GetAppend(d, key, value, k);
    }
  }

  /** Assigning to a key already present changes no key's position. */
  lemma PutKeepsPositions(d: Dict, key: string, value: Json)
    requires HasKey(d, key)
    ensures |Put(d, key, value)| == |d|
    ensures forall i :: 0 <= i < |d| ==> Put(d, key, value)[i].0 == d[i].0
  {
    forall i | 0 <= i < |d| ensures Put(d, key, value)[i].0 == d[i].0 {
      ReplaceAt(d, key, value, i);
    }
  }

  /** The keys of `d` in iteration order, the order in which each key was
    * first added (see `KeysSpec` and `KeysInOrder`). */
  function Keys(d: Dict): (ks: seq<string>)
    ensures forall i :: 0 <= i < |ks| ==> HasKey(d, ks[i])
  {
    if |d| == 0 then []
    else
      var ks := Keys(d[..|d| - 1]);
      if d[|d| - 1].0 in ks then ks else ks + [d[|d| - 1].0]
  }

  /** Iterating a dict visits every key, each exactly once. */
  lemma {:induction false} KeysSpec(d: Dict)
    ensures forall k :: k in Keys(d) <==> HasKey(d, k)
    ensures forall i, j :: 0 <= i < j < |Keys(d)| ==> Keys(d)[i] != Keys(d)[j]
  {
    if |d| > 0 {
      KeysSpec(d[..|d| - 1]);
    }
  }

  /** A dict with no repeated key iterates its entries' keys in order. */
  lemma {:induction false} KeysInOrder(d: Dict)
    requires forall i, j :: 0 <= i < j < |d| ==> d[i].0 != d[j].0
    ensures Keys(d) == seq(|d|, i requires 0 <= i < |d| => d[i].0)
  {
    if |d| > 0 {
      var front := d[..|d| - 1];
      KeysInOrder(front);
      KeysSpec(front);
      assert !HasKey(front, d[|d| - 1].0) by {
        HasKeyIff(front, d[|d| - 1].0);
      }
    }
  }

  /** Assigning to a key that is not present makes it the last key iterated. */
  lemma PutNewKeyLast(d: Dict, key: string, value: Json)
    requires !HasKey(d, key)
    ensures Keys(Put(d, key, value)) == Keys(d) + [key]
  {
    KeysSpec(d);
    assert (d + [(key, value)])[..|d|] == d;
  }

  /** The value `d[key]` of a key that is present. */
  function ValueAt(d: Dict, key: string): (v: Json)
    requires HasKey(d, key)
    ensures Get(d, key) == Some(v)
    ensures exists i :: 0 <= i < |d| && d[i] == (key, v)
  {
    GetIsLastEntry(d, key);
    Get(d, key).value
  }

  // ---------------------------------------------------------------------------
  // Truthiness, type names, str and repr
  // ---------------------------------------------------------------------------

  /** `bool(j)`: None, False, 0 and empty strings, lists and dicts are false. */
  predicate Truthy(j: Json) {
    match j
    case JNull => false
    case JBool(b) => b
    case JInt(n) => n != 0
    case JStr(s) => s != ""
    case JArr(items) => items != []
    case JObj(d) => d != []
  }

  /** `type(j).__name__`. */
  function TypeName(j: Json): string {
    match j
    case JNull => "NoneType"
    case JBool(_) => "bool"
    case JInt(_) => "int"
    case JStr(_) => "str"
    case JArr(_) => "list"
    case JObj(_) => "dict"
  }

  function Digit(n: nat): char
    requires n < 10
  {
    "0123456789"[n]
  }

  /** Decimal digits of a natural number, most significant first. */
  function NatToString(n: nat): (s: string)
    ensures |s| > 0 && forall i :: 0 <= i < |s| ==> '0' <= s[i] <= '9'
  {
    if n < 10 then [Digit(n)] else NatToString(n / 10) + [Digit(n % 10)]
  }

  /** `str(n)` for an int. */
  function IntToString(n: int): string {
    if n < 0 then "-" + NatToString(-n) else NatToString(n)
  }

  function JoinStrings(sep: string, parts: seq<string>): string {
    if |parts| == 0 then ""
    else if |parts| == 1 then parts[0]
    else parts[0] + sep + JoinStrings(sep, parts[1..])
  }

  function HexDigit(n: nat): char
    requires n < 16
  {
    "0123456789abcdef"[n]
  }

  /** Characters `repr` prints as `\xNN`: the C0 controls other than tab,
    * newline and carriage return, DEL, the C1 controls, no-break space and
    * soft hyphen. */
  predicate ShownAsHexEscape(c: char) {
    (c < ' ' && c != '\t' && c != '\n' && c != '\r') ||
    (0x7f <= c as int <= 0xa0) || c as int == 0xad
  }

  /** `repr(s)` for a str: single quotes unless the string holds a single
    * quote and no double quote. */
  function StrRepr(s: string): string {
    var quote := if '\'' in s && '"' !in s then '"' else '\'';
    [quote] + EscapeChars(s, quote) + [quote]
  }

  function EscapeChars(s: string, quote: char): string {
    if |s| == 0 then ""
    else
      var c := s[0];
      var e :=
        if c == quote || c == '\\' then ['\\', c]
        else if c == '\t' then "\\t"
        else if c == '\n' then "\\n"
        else if c == '\r' then "\\r"
        else if ShownAsHexEscape(c) then ['\\', 'x', HexDigit(c as int / 16), HexDigit(c as int % 16)]
        else [c];
      e + EscapeChars(s[1..], quote)
  }

  /** `repr(j)`. */
  function Repr(j: Json): string
    decreases j
  {
    match j
    case JNull => "None"
    case JBool(b) => if b then "True" else "False"
    case JInt(n) => IntToString(n)
    case JStr(s) => StrRepr(s)
    case JArr(items) =>
      "[" + JoinStrings(", ", seq(|items|, i requires 0 <= i < |items| => Repr(items[i]))) + "]"
    case JObj(d) =>
      var ks := Keys(d);
      "{" + JoinStrings(", ", seq(|ks|, i requires 0 <= i < |ks| =>
                                         StrRepr(ks[i]) + ": " + Repr(ValueAt(d, ks[i])))) + "}"
  }

  /** `repr` of a str with nothing to escape is the str in single quotes. */
  lemma {:induction false} StrReprPlain(s: string)
    requires forall i :: 0 <= i < |s| ==> s[i] != '\'' && s[i] != '\\' && !ShownAsHexEscape(s[i])
    requires forall i :: 0 <= i < |s| ==> s[i] != '\t' && s[i] != '\n' && s[i] != '\r'
    ensures StrRepr(s) == "'" + s + "'"
  {
    EscapePlain(s);
  }

  lemma {:induction false} EscapePlain(s: string)
    requires forall i :: 0 <= i < |s| ==> s[i] != '\'' && s[i] != '\\' && !ShownAsHexEscape(s[i])
    requires forall i :: 0 <= i < |s| ==> s[i] != '\t' && s[i] != '\n' && s[i] != '\r'
    ensures EscapeChars(s, '\'') == s
  {
    if |s| > 0 {
      EscapePlain(s[1..]);
      assert s == [s[0]] + s[1..];
    }
  }

  /** `repr` of short lists: items repr'd and separated by ", ". */
  lemma ReprList(x: Json, y: Json)
    ensures Repr(JArr([])) == "[]"
    ensures Repr(JArr([x])) == "[" + Repr(x) + "]"
    ensures Repr(JArr([x, y])) == "[" + Repr(x) + ", " + Repr(y) + "]"
  {
    assert Repr(JArr([x])) == "[" + Repr(x) + "]" by {
      assert seq(1, i requires 0 <= i < 1 => Repr([x][i])) == [Repr(x)];
    }
    var r := Repr(JArr([x]));
    assert r[..|r| - 1] == "[" + Repr(x);
    ReprListAppend([x], y);
    assert [x] + [y] == [x, y];
  }

  /** Joining one more part appends the separator and the part. */
  lemma {:induction false} JoinStringsSnoc(sep: string, parts: seq<string>, p: string)
    requires |parts| > 0
    ensures JoinStrings(sep, parts + [p]) == JoinStrings(sep, parts) + sep + p
  {
    if |parts| > 1 {
      assert (parts + [p])[1..] == parts[1..] + [p];
      JoinStringsSnoc(sep, parts[1..], p);
    } else {
      assert (parts + [p])[1..] == [p];
    }
  }

  /** `repr` of every longer list: one more item goes before the closing
    * bracket, after ", ". With `ReprList` this gives the repr of every list. */
  lemma ReprListAppend(xs: seq<Json>, y: Json)
    requires |xs| > 0
    ensures var r := Repr(JArr(xs));
            Repr(JArr(xs + [y])) == r[..|r| - 1] + ", " + Repr(y) + "]"
  {
    var parts := seq(|xs|, i requires 0 <= i < |xs| => Repr(xs[i]));
    assert Repr(JArr(xs + [y])) == "[" + JoinStrings(", ", parts + [Repr(y)]) + "]" by {
      var ys := xs + [y];
      assert seq(|ys|, i requires 0 <= i < |ys| => Repr(ys[i])) == parts + [Repr(y)];
    }
    JoinStringsSnoc(", ", parts, Repr(y));
    var r := Repr(JArr(xs));
    assert r[..|r| - 1] == "[" + JoinStrings(", ", parts);
  }

  /** `repr` of short dicts: each key repr'd and followed by ": " and its value. */
  lemma ReprDict(k: string, x: Json)
    ensures Repr(JObj([])) == "{}"
    ensures Repr(JObj([(k, x)])) == "{" + StrRepr(k) + ": " + Repr(x) + "}"
  {
    var d := [(k, x)];
    SingleEntry(k, x);
    var ks := Keys(d);
    assert seq(|ks|, i requires 0 <= i < |ks| => StrRepr(ks[i]) + ": " + Repr(ValueAt(d, ks[i])))
        == [StrRepr(k) + ": " + Repr(x)];
  }

  /** A one-entry dict has that one key, holding that value. */
  lemma SingleEntry(k: string, x: Json)
    ensures Keys([(k, x)]) == [k] && ValueAt([(k, x)], k) == x
  {
    var d := [(k, x)];
    assert d[..0] == [];
    assert d == [] + [(k, x)];
    GetAppend([], k, x, k);
  }

  /** `str(j)`: a str is itself, every other value is its repr. */
  function Str(j: Json): (r: string)
    ensures j.JStr? ==> r == j.s
    ensures j == JNull ==> r == "None"
    ensures j.JBool? ==> r == if j.b then "True" else "False"
    ensures j.JInt? ==> r == IntToString(j.n)
  {
    if j.JStr? then j.s else Repr(j)
  }

  // ---------------------------------------------------------------------------
  // int(...)
  // ---------------------------------------------------------------------------

  /** The characters `str.strip()` removes: the ASCII controls tab to
    * carriage return and the separators 0x1c-0x1f, the space, and the
    * Unicode spaces and separators. */
  predicate IsSpace(c: char) {
    || c == ' ' || ('\t' <= c <= '\r') || (0x1c <= c as int <= 0x1f)
    || c as int == 0x85 || c as int == 0xa0 || c as int == 0x1680
    || (0x2000 <= c as int <= 0x200a) || c as int == 0x2028 || c as int == 0x2029
    || c as int == 0x202f || c as int == 0x205f || c as int == 0x3000
  }

  /** The characters `int()` skips around a literal. CPython first turns
    * every non-ASCII space into `' '` and leaves ASCII alone, then skips only
    * the space and tab to carriage return, so the separators 0x1c-0x1f are
    * not white space to `int()`. */
  predicate IsIntSpace(c: char) {
    IsSpace(c) && !(0x1c <= c as int <= 0x1f)
  }

  /** White space as `int()` (`forInt`) or `str.strip()` sees it. */
  predicate Blank(forInt: bool, c: char) {
    if forInt then IsIntSpace(c) else IsSpace(c)
  }

  /** `s` without the white space of the selected kind at either end. */
  function StripBlank(forInt: bool, s: string): (r: string)
    ensures |r| <= |s|
    ensures r == [] || (!Blank(forInt, r[0]) && !Blank(forInt, r[|r| - 1]))
  {
    if |s| > 0 && Blank(forInt, s[0]) then StripBlank(forInt, s[1..])
    else if |s| > 0 && Blank(forInt, s[|s| - 1]) then StripBlank(forInt, s[..|s| - 1])
    else s
  }

  /** `str.strip()`. */
  function Strip(s: string): string {
    StripBlank(false, s)
  }

  /** `r` is the slice of `s` starting at `i`, with only white space of the
    * selected kind before and after it. */
  predicate SpaceAround(forInt: bool, s: string, i: int, r: string) {
    && 0 <= i <= |s| - |r| && r == s[i..i + |r|]
    && (forall k :: 0 <= k < i ==> Blank(forInt, s[k]))
    && (forall k :: i + |r| <= k < |s| ==> Blank(forInt, s[k]))
  }

  lemma SpaceAroundFirst(forInt: bool, s: string, j: int, r: string)
    requires |s| > 0 && Blank(forInt, s[0]) && SpaceAround(forInt, s[1..], j, r)
    ensures SpaceAround(forInt, s, j + 1, r)
  {
    assert r == s[j + 1..j + 1 + |r|];
    forall k | 0 < k < j + 1 ensures Blank(forInt, s[k]) {
      assert s[k] == s[1..][k - 1];
    }
    forall k | j + 1 + |r| <= k < |s| ensures Blank(forInt, s[k]) {
      assert s[k] == s[1..][k - 1];
    }
  }

  lemma SpaceAroundLast(forInt: bool, s: string, j: int, r: string)
    requires |s| > 0 && Blank(forInt, s[|s| - 1]) && SpaceAround(forInt, s[..|s| - 1], j, r)
    ensures SpaceAround(forInt, s, j, r)
  {
    var t := s[..|s| - 1];
    assert r == s[j..j + |r|];
    forall k | 0 <= k < j ensures Blank(forInt, s[k]) {
      assert s[k] == t[k];
    }
    forall k | j + |r| <= k < |t| ensures Blank(forInt, s[k]) {
      assert s[k] == t[k];
    }
  }

  /** Stripping leaves a slice of `s` with only white space around it. */
  lemma {:induction false} StripSlice(forInt: bool, s: string) returns (i: int)
    ensures SpaceAround(forInt, s, i, StripBlank(forInt, s))
  {
    if |s| > 0 && Blank(forInt, s[0]) {
      var j := StripSlice(forInt, s[1..]);
      SpaceAroundFirst(forInt, s, j, StripBlank(forInt, s));
      i := j + 1;
    } else if |s| > 0 && Blank(forInt, s[|s| - 1]) {
      i := StripSlice(forInt, s[..|s| - 1]);
      SpaceAroundLast(forInt, s, i, StripBlank(forInt, s));
    } else {
      i := 0;
      assert s == s[0..|s|];
    }
  }

  /** Stripping removes exactly the white space around the text of `s`: the
    * result is a slice of `s` with only white space before and after it, it
    * starts and ends with non-space, and it is empty exactly when `s` is all
    * white space. This holds for `str.strip()` and for the stripping of
    * `int()` alike. */
  lemma StripSpec(forInt: bool, s: string)
    ensures exists i :: SpaceAround(forInt, s, i, StripBlank(forInt, s))
    ensures StripBlank(forInt, s) == "" <==> forall k :: 0 <= k < |s| ==> Blank(forInt, s[k])
  {
    var i := StripSlice(forInt, s);
    var r := StripBlank(forInt, s);
    if r == "" {
      forall k | 0 <= k < |s| ensures Blank(forInt, s[k]) {
        assert k < i || i + |r| <= k;
      }
    } else {
      assert r[0] == s[i];
    }
  }

  /** `int()` does not skip the separators 0x1c-0x1f that `str.strip()`
    * removes: `"\x1c1".strip()` is `"1"`, but `int("\x1c1")` is the
    * invalid-literal ValueError. */
  lemma IntKeepsSeparators()
    ensures Strip([0x1c as char, '1']) == "1"
    ensures StrToInt([0x1c as char, '1']) == Err(ValueFault(INVALID_INT_LITERAL + "'\\x1c1'"))
  {
    var s := [0x1c as char, '1'];
    assert StripBlank(false, s[1..]) == "1";
    assert Unsigned(s) == s;
    assert EscapeChars(s, '\'') == "\\x1c1" by {
      assert EscapeChars(s[1..], '\'') == "1";
    }
  }

  predicate AllDigits(s: string) {
    forall i :: 0 <= i < |s| ==> '0' <= s[i] <= '9'
  }

  /** The value of a string of decimal digits, most significant first. */
  function DigitsValue(s: string): nat
    requires AllDigits(s)
  {
    if |s| == 0 then 0
    else DigitsValue(s[..|s| - 1]) * 10 + (s[|s| - 1] as int - '0' as int)
  }

  /** What follows the sign once `int()` has stripped its white space. */
  function Unsigned(s: string): string {
    var t := StripBlank(true, s);
    if |t| > 0 && (t[0] == '-' || t[0] == '+') then t[1..] else t
  }

  /** The integer a decimal literal denotes, as `int(s)` reads it: optional
    * surrounding white space, an optional sign, then at least one digit. */
  function ParseIntLiteral(s: string): Option<int> {
    var digits := Unsigned(s);
    if |digits| > 0 && AllDigits(digits) then
      var v: int := DigitsValue(digits);
      Some(if StripBlank(true, s)[0] == '-' then -v else v)
    else None
  }

  /** How many digits `s` starts with. */
  function LeadingDigits(s: string): (n: nat)
    ensures n <= |s|
    ensures forall i :: 0 <= i < n ==> '0' <= s[i] <= '9'
    ensures n < |s| ==> !('0' <= s[n] <= '9')
  {
    if |s| > 0 && '0' <= s[0] <= '9' then 1 + LeadingDigits(s[1..]) else 0
  }

  lemma {:induction false} DigitsValueOfNatToString(n: nat)
    ensures AllDigits(NatToString(n)) && DigitsValue(NatToString(n)) == n
  {
    var s := NatToString(n);
    if n >= 10 {
      DigitsValueOfNatToString(n / 10);
      assert s[..|s| - 1] == NatToString(n / 10);
    }
  }

  /** A printed int has no white space for `int()` to strip. */
  lemma StripIntToString(n: int)
    ensures StripBlank(true, IntToString(n)) == IntToString(n)
  {
    var s := IntToString(n);
    var digits := NatToString(if n < 0 then -n else n);
    assert s[|s| - 1] == digits[|digits| - 1];
    assert !Blank(true, s[0]) && !Blank(true, s[|s| - 1]);
  }

  /** `int(str(n)) == n`: the literal printer and the literal reader agree. */
  lemma {:induction false} ParseIntLiteralOfIntToString(n: int)
    ensures Unsigned(IntToString(n)) == NatToString(if n < 0 then -n else n)
    ensures ParseIntLiteral(IntToString(n)) == Some(n)
  {
    var s := IntToString(n);
    var m: nat := if n < 0 then -n else n;
    var digits := NatToString(m);
    DigitsValueOfNatToString(m);
    StripIntToString(n);
    if n < 0 {
      assert s[1..] == digits;
    } else {
      assert '0' <= digits[0] <= '9';
    }
  }

  const INVALID_INT_LITERAL := "invalid literal for int() with base 10: "
  const INT_ARGUMENT_TYPE := "int() argument must be a string, a bytes-like object or a real number, not '"

  /** Python's default limit on the digits of a decimal string `int()`
    * converts (`sys.get_int_max_str_digits()`). */
  const INT_MAX_STR_DIGITS := 4300

  function DigitLimitMessage(digits: nat): string {
    "Exceeds the limit (4300 digits) for integer string conversion: value has " + NatToString(digits) +
    " digits; use sys.set_int_max_str_digits() to increase the limit"
  }

  /** The first `n` characters of `s` (a `%.<n>R` format). */
  function Truncated(s: string, n: nat): (r: string)
    ensures |r| <= n && r <= s
    ensures |s| <= n ==> r == s
  {
    if |s| > n then s[..n] else s
  }

  /** `int(s)` for a str: a run of digits longer than the limit is a
    * ValueError, and otherwise `s` is read as a decimal literal (ValueError
    * when it is not one). */
  function StrToInt(s: string): (r: Result<int>)
    ensures r.Ok? <==> ParseIntLiteral(s).Some? && |Unsigned(s)| <= INT_MAX_STR_DIGITS
    ensures r.Ok? ==> Some(r.value) == ParseIntLiteral(s)
    ensures LeadingDigits(Unsigned(s)) > INT_MAX_STR_DIGITS ==>
              r == Err(ValueFault(DigitLimitMessage(LeadingDigits(Unsigned(s)))))
    ensures r.Err? ==> r.fault.ValueFault?
    ensures ParseIntLiteral(s).None? && LeadingDigits(Unsigned(s)) <= INT_MAX_STR_DIGITS ==>
              r == Err(ValueFault(INVALID_INT_LITERAL + Truncated(StrRepr(s), 200)))
  {
    var count := LeadingDigits(Unsigned(s));
    if count > INT_MAX_STR_DIGITS then Err(ValueFault(DigitLimitMessage(count)))
    else
      match ParseIntLiteral(s)
      case Some(n) => Ok(n)
      case None => Err(ValueFault(INVALID_INT_LITERAL + Truncated(StrRepr(s), 200)))
  }

  /** `int(j)` for a decoded JSON value: a bool or int converts, a str is
    * read by `StrToInt`, anything else is a TypeError. */
  function ToInt(j: Json): (r: Result<int>)
    ensures j.JBool? ==> r == Ok(if j.b then 1 else 0)
    ensures j.JInt? ==> r == Ok(j.n)
    ensures (j.JNull? || j.JArr? || j.JObj?) ==> r.Err? && r.fault.InternalFault?
    ensures j.JStr? ==> r == StrToInt(j.s)
    ensures r.Err? ==> !r.fault.HttpFailure?
  {
    match j
    case JBool(b) => Ok(if b then 1 else 0)
    case JInt(n) => Ok(n)
    case JStr(s) => StrToInt(s)
    case _ =>
      Err(InternalFault(INT_ARGUMENT_TYPE + TypeName(j) + "'"))
  }

  /** `int(str(n)) == n` whenever `str(n)` itself is within the digit limit. */
  lemma ToIntOfIntToString(n: int)
    requires |NatToString(if n < 0 then -n else n)| <= INT_MAX_STR_DIGITS
    ensures ToInt(JStr(IntToString(n))) == Ok(n)
  {
    ParseIntLiteralOfIntToString(n);
    StripIntToString(n);
  }

  // ---------------------------------------------------------------------------
  // str.join
  // ---------------------------------------------------------------------------

  /** The index of the first item that is not a str, if any. */
  function FirstNonStr(items: seq<Json>): (r: Option<nat>)
    ensures r.None? <==> forall i :: 0 <= i < |items| ==> items[i].JStr?
    ensures r.Some? ==> r.value < |items| && !items[r.value].JStr? &&
                        forall i :: 0 <= i < r.value ==> items[i].JStr?
  {
    if |items| == 0 then None
    else if !items[0].JStr? then Some(0)
    else
      match FirstNonStr(items[1..])
      case None => None
      case Some(k) => Some(k + 1)
  }

  /** `sep.join(j)`: a list of strs is joined; a str is joined character by
    * character; a dict by its keys; a list holding a non-str, and any value
    * that is not iterable, is a TypeError. */
  function JoinIterable(sep: string, j: Json): (r: Result<string>)
    ensures r.Err? ==> r.fault.InternalFault?
    ensures j.JArr? ==> (r.Ok? <==> forall i :: 0 <= i < |j.items| ==> j.items[i].JStr?)
    ensures j.JArr? && (forall i :: 0 <= i < |j.items| ==> j.items[i].JStr?) ==>
              r == Ok(JoinStrings(sep, seq(|j.items|, i requires 0 <= i < |j.items| => j.items[i].s)))
    ensures j.JArr? && FirstNonStr(j.items).Some? ==>
              var k := FirstNonStr(j.items).value;
              r == Err(InternalFault("sequence item " + NatToString(k) + ": expected str instance, "
                                     + TypeName(j.items[k]) + " found"))
    ensures j.JStr? ==> r == Ok(JoinStrings(sep, seq(|j.s|, i requires 0 <= i < |j.s| => [j.s[i]])))
    ensures j.JObj? ==> r == Ok(JoinStrings(sep, Keys(j.entries)))
    ensures (j.JNull? || j.JBool? || j.JInt?) ==> r == Err(InternalFault("can only join an iterable"))
  {
    match j
    case JArr(items) =>
      (match FirstNonStr(items)
       case None => Ok(JoinStrings(sep, seq(|items|, i requires 0 <= i < |items| => items[i].s)))
       case Some(k) =>
         Err(InternalFault("sequence item " + NatToString(k) + ": expected str instance, "
                           + TypeName(items[k]) + " found")))
    case JStr(s) => Ok(JoinStrings(sep, seq(|s|, i requires 0 <= i < |s| => [s[i]])))
    case JObj(d) => Ok(JoinStrings(sep, Keys(d)))
    case _ => Err(InternalFault("can only join an iterable"))
  }

  // ---------------------------------------------------------------------------
  // The inverse of joining on one separator character
  // ---------------------------------------------------------------------------

  /** `s.split(c)`: the pieces between occurrences of `c`. */
  function Split(c: char, s: string): (r: seq<string>)
    ensures |r| >= 1
  {
    if |s| == 0 then [""]
    else
      var rest := Split(c, s[1..]);
      if s[0] == c then [""] + rest else [[s[0]] + rest[0]] + rest[1..]
  }

  lemma {:induction false} SplitNoSep(c: char, p: string)
    requires c !in p
    ensures Split(c, p) == [p]
  {
    if |p| > 0 {
      SplitNoSep(c, p[1..]);
      assert [p[0]] + p[1..] == p;
    }
  }

  lemma {:induction false} SplitPiece(c: char, p: string, rest: string)
    requires c !in p
    ensures Split(c, p + [c] + rest) == [p] + Split(c, rest)
  {
    if |p| == 0 {
      assert p + [c] + rest == [c] + rest;
      assert ([c] + rest)[1..] == rest;
    } else {
      var s := p + [c] + rest;
      assert s[1..] == p[1..] + [c] + rest;
      SplitPiece(c, p[1..], rest);
      assert [p[0]] + p[1..] == p;
    }
  }

  /** Joining on a separator that no piece contains, then splitting on it,
    * gives the pieces back. */
  lemma {:induction false} SplitJoin(c: char, parts: seq<string>)
    requires |parts| >= 1
    requires forall i :: 0 <= i < |parts| ==> c !in parts[i]
    ensures Split(c, JoinStrings([c], parts)) == parts
  {
    if |parts| == 1 {
      SplitNoSep(c, parts[0]);
    } else {
      SplitJoin(c, parts[1..]);
      SplitPiece(c, parts[0], JoinStrings([c], parts[1..]));
      assert [parts[0]] + parts[1..] == parts;
    }
  }
}

=== FILE: server.dfy ===
/**
 * The MCP server of the STRING bridge: a JSON-RPC 2.0 loop over
 * line-delimited JSON that answers `initialize`, `tools/list`, `tools/call`,
 * `resources/list` and `prompts/list`, and forwards tool calls to the
 * bridge.
 *
 * Every message the server writes is modelled as the JSON value it passes to
 * `json.dumps`; decoding a line (`json.loads`) and pretty-printing a tool's
 * data (`json.dumps(..., indent=2)`) are functions the server is given.
 */
module McpServer {
  import opened PyJson
  import opened StringBridge

  const JSONRPC_VERSION := "2.0"
  const DEFAULT_PROTOCOL_VERSION := "2025-03-26"
  const SERVER_NAME := "string-mcp"
  const SERVER_VERSION := "0.2.0"
  const METHOD_NOT_FOUND := -32601
  const IDENTIFIERS_REQUIRED := "identifiers parameter is required and cannot be empty"

  // ---------------------------------------------------------------------------
  // MCP structures
  // ---------------------------------------------------------------------------

  /** `_text_block`. */
  function TextBlock(text: string): Json {
    JObj([("type", JStr("text")), ("text", JStr(text))])
  }

  /** What a tool call answers: `isError` and the text of its single block. */
  datatype ToolResult = ToolResult(isError: bool, text: string) {
    function ToJson(): Json {
      JObj([("isError", JBool(isError)), ("content", JArr([TextBlock(text)]))])
    }
  }

  /** `_success_payload`: a list or dict is pretty-printed, anything else is `str`-ed. */
  function SuccessResult(dumps: Json -> string, data: Json): (r: ToolResult)
    ensures !r.isError
    ensures data.JArr? || data.JObj? ==> r.text == dumps(data)
  {
    ToolResult(false, if data.JArr? || data.JObj? then dumps(data) else Str(data))
  }

  /** `_error_payload`. */
  function ErrorResult(msg: string): (r: ToolResult)
    ensures r.isError && r.text == "Error: " + msg
  {
    ToolResult(true, "Error: " + msg)
  }

  /** The message each `except` clause of `_handle_call_tool` reports. */
  function FaultMessage(f: Fault): string {
    match f
    case HttpFailure(msg) => "HTTP request failed: " + msg
    case ValueFault(msg) => msg
    case InternalFault(msg) => "Internal error: " + msg
  }

  /** The JSON-RPC response `_send` writes for a request with a non-null id:
    * the error when there is one, otherwise the result, with a falsy result
    * replaced by `{}`. */
  function Response(id: Json, result: Json, error: Json): Json {
    JObj([("jsonrpc", JStr(JSONRPC_VERSION)), ("id", id)] +
         if error != JNull then [("error", error)]
         else [("result", if Truthy(result) then result else JObj([]))])
  }

  /** What `_send` writes: nothing to a notification (a null id), one response otherwise. */
  function Emitted(id: Json, result: Json, error: Json): seq<Json> {
    if id == JNull then [] else [Response(id, result, error)]
  }

  // ---------------------------------------------------------------------------
  // The tools
  // ---------------------------------------------------------------------------

  datatype Tool = MapIdentifiersTool | NetworkTool | EnrichmentTool | VersionTool {
    function Name(): string {
      match this
      case MapIdentifiersTool => "map_identifiers"
      case NetworkTool => "get_network_interactions"
      case EnrichmentTool => "get_functional_enrichment"
      case VersionTool => "get_version_info"
    }

    function Description(): string {
      match this
      case MapIdentifiersTool => "Map protein identifiers to STRING IDs."
      case NetworkTool => "Retrieve STRING interaction edges."
      case EnrichmentTool => "Perform GO / pathway enrichment on a protein set."
      case VersionTool => "Return the current STRING database version."
    }

    /** The tool's own properties, after `identifiers` for the tools that take one. */
    function Properties(): Dict {
      match this
      case MapIdentifiersTool =>
        [("identifiers", StringArraySchema()), ("species", TypeSchema("integer")),
         ("echo_query", TypeSchema("boolean"))]
      case NetworkTool =>
        [("identifiers", StringArraySchema()), ("species", TypeSchema("integer")),
         ("required_score", TypeSchema("integer")), ("add_nodes", TypeSchema("integer")),
         ("network_type", JObj([("type", JStr("string")),
                                ("enum", JArr([JStr("functional"), JStr("physical")]))]))]
      case EnrichmentTool =>
        [("identifiers", StringArraySchema()), ("species", TypeSchema("integer")),
         ("background_identifiers", StringArraySchema())]
      case VersionTool => []
    }

    /** The input schema; every tool but `get_version_info` requires `identifiers`. */
    function Schema(): Json {
      JObj([("type", JStr("object")), ("properties", JObj(Properties()))] +
           if this == VersionTool then [] else [("required", JArr([JStr("identifiers")]))])
    }
  }

  function TypeSchema(t: string): Json {
    JObj([("type", JStr(t))])
  }

  function StringArraySchema(): Json {
    JObj([("type", JStr("array")), ("items", TypeSchema("string"))])
  }

  /** The tools in the order `tools/list` lists them. */
  const TOOLS: seq<Tool> := [MapIdentifiersTool, NetworkTool, EnrichmentTool, VersionTool]

  /** `desc(...)`: the schema under both the modern and the older field name. */
  function Descriptor(t: Tool): Json {
    JObj([("name", JStr(t.Name())), ("description", JStr(t.Description())),
          ("parameters", t.Schema()), ("inputSchema", t.Schema())])
  }

  /** The result of `tools/list`. */
  function ToolsListResult(): Json {
    JObj([("tools", JArr([Descriptor(TOOLS[0]), Descriptor(TOOLS[1]), Descriptor(TOOLS[2]), Descriptor(TOOLS[3])]))])
  }

  /** The `if`/`elif` chain of `_handle_call_tool`: which tool a name selects. */
  function ToolNamed(name: Json): Option<Tool> {
    if name == JStr("map_identifiers") then Some(MapIdentifiersTool)
    else if name == JStr("get_network_interactions") then Some(NetworkTool)
    else if name == JStr("get_functional_enrichment") then Some(EnrichmentTool)
    else if name == JStr("get_version_info") then Some(VersionTool)
    else None
  }

  // ---------------------------------------------------------------------------
  // Handlers, as functions of the environment
  // ---------------------------------------------------------------------------

  /** What the server depends on but does not compute: the bridge's
    * configuration and HTTP session, and `json.dumps(..., indent=2)`. */
  datatype Host = Host(cfg: Config, get: HttpRequest -> Fetched, dumps: Json -> string)

  /** `_handle_initialize`: the client's protocol version is echoed; `params`
    * that is not a dict raises out of the handler. */
  function InitializeResult(params: Json): Result<Json> {
    var clientVersion :- GetFrom(params, "protocolVersion", JStr(DEFAULT_PROTOCOL_VERSION));
    Ok(JObj([("protocolVersion", clientVersion),
             ("capabilities", JObj([("tools", JObj([("executable", JBool(true))]))])),
             ("serverInfo", JObj([("name", JStr(SERVER_NAME)), ("version", JStr(SERVER_VERSION))]))]))
  }

  /** The `try` body of `_handle_call_tool` for a known tool: the arguments
    * are read, an empty identifier list is refused before the bridge is
    * called, and the bridge's data or exception is the outcome. */
  function RunTool(h: Host, t: Tool, arguments: Json): Result<seq<Json>> {
    if t == VersionTool then VersionResult(h.cfg, h.get)
    else
      var ids :- GetFrom(arguments, "identifiers", JArr([]));
      if !Truthy(ids) then Err(ValueFault(IDENTIFIERS_REQUIRED))
      else
        var args := arguments.entries;
        match t
        case MapIdentifiersTool =>
          MapIdentifiersResult(h.cfg, h.get, ids, GetOr(args, "species", JNull),
                               GetOr(args, "echo_query", JBool(false)))
        case NetworkTool =>
          NetworkResult(h.cfg, h.get, ids, GetOr(args, "species", JNull), GetOr(args, "required_score", JNull),
                        GetOr(args, "add_nodes", JInt(0)), GetOr(args, "network_type", JStr("functional")))
        case EnrichmentTool =>
          EnrichmentResult(h.cfg, h.get, ids, GetOr(args, "species", JNull),
                           GetOr(args, "background_identifiers", JNull))
  }

  /** The payload for a known tool's outcome: its data, or the message of
    * the `except` clause that caught its exception. */
  function ToolOutcome(dumps: Json -> string, outcome: Result<seq<Json>>): ToolResult {
    match outcome
    case Ok(data) => SuccessResult(dumps, JArr(data))
    case Err(f) => ErrorResult(FaultMessage(f))
  }

  /** `_handle_call_tool` once `name` and `arguments` are known. */
  function ToolCallResult(h: Host, name: Json, arguments: Json): ToolResult {
    match ToolNamed(name)
    case None => ErrorResult("Unknown tool: " + Str(name))
    case Some(t) => ToolOutcome(h.dumps, RunTool(h, t, arguments))
  }

  /** `_handle_call_tool` as written: `params.get("name")` and
    * `params.get("arguments", {})` sit before the `try`, so `params` that is
    * not a dict raises out of the handler and out of the server loop. */
  function CallToolAsWritten(h: Host, params: Json): Result<ToolResult> {
    var name :- GetFrom(params, "name", JNull);
    var arguments :- GetFrom(params, "arguments", JObj([]));
    Ok(ToolCallResult(h, name, arguments))
  }

  /** `_handle_call_tool` with the two lookups inside the `try`: every
    * failure becomes an `isError` result. */
  function CallTool(h: Host, params: Json): ToolResult {
    if !params.JObj? then ErrorResult(FaultMessage(NoGetAttribute(params)))
    else ToolCallResult(h, GetOr(params.entries, "name", JNull), GetOr(params.entries, "arguments", JObj([])))
  }

  /** The error object of an unknown method. */
  function MethodNotFound(name: Json): Json {
    JObj([("code", JInt(METHOD_NOT_FOUND)), ("message", JStr("Method not found: " + Str(name)))])
  }

  /** What the handler for `meth` passes to `_send`: the result and the
    * error (one of them null), or the exception it raises. */
  function Answer(h: Host, meth: Json, params: Json): (r: Result<(Json, Json)>)
    ensures r.Err? <==> (meth == JStr("initialize") || meth == JStr("tools/call")) && !params.JObj?
    ensures r.Err? ==> r.fault == NoGetAttribute(params)
  {
    if meth == JStr("initialize") then
      var result :- InitializeResult(params);
      Ok((result, JNull))
    else if meth == JStr("tools/list") then Ok((ToolsListResult(), JNull))
    else if meth == JStr("tools/call") then
      var result :- CallToolAsWritten(h, params);
      Ok((result.ToJson(), JNull))
    else Ok(OtherAnswer(meth))
  }

  /** The rest of the chain: the two stubs, then the unknown-method error. */
  function OtherAnswer(meth: Json): (Json, Json) {
    if meth == JStr("resources/list") then (JObj([("resources", JArr([]))]), JNull)
    else if meth == JStr("prompts/list") then (JObj([("prompts", JArr([]))]), JNull)
    else (JNull, MethodNotFound(meth))
  }

  /** One decoded request dict: the response to write (none for a
    * notification), or the exception that escapes the loop. */
  function Dispatch(h: Host, req: Dict): Result<Option<Json>> {
    var id := GetOr(req, "id", JNull);
    if id == JNull then Ok(None)
    else
      var sent :- Answer(h, GetOr(req, "method", JNull), GetOr(req, "params", JObj([])));
      Ok(Some(Response(id, sent.0, sent.1)))
  }

  /** The server's state between lines: the current request id, everything
    * written so far, and the exception that ended the loop, if any. */
  datatype RunState = RunState(requestId: Json, out: seq<Json>, raised: Option<Fault>)

  /** One iteration of `run`: blank lines are skipped; a line that does not
    * decode clears the request id; a decoded value that is not a dict raises
    * before the id is read; otherwise the id is recorded and the request
    * dispatched. */
  function StepLine(h: Host, loads: string -> Option<Json>, st: RunState, raw: string): RunState
    requires st.raised.None?
  {
    var line := Strip(raw);
    if line == "" then st
    else
      match loads(line)
      case None => st.(requestId := JNull)
      case Some(req) =>
        if !req.JObj? then st.(raised := Some(NoGetAttribute(req)))
        else
          var id := GetOr(req.entries, "id", JNull);
          match Dispatch(h, req.entries)
          case Ok(reply) => RunState(id, st.out + (if reply.Some? then [reply.value] else []), None)
          case Err(f) => RunState(id, st.out, Some(f))
  }

  /** `run` over the lines read so far; an exception ends the loop. */
  function RunLines(h: Host, loads: string -> Option<Json>, st: RunState, lines: seq<string>): RunState
    requires st.raised.None?
  {
    if |lines| == 0 then st
    else
      var before := RunLines(h, loads, st, lines[..|lines| - 1]);
      if before.raised.Some? then before else StepLine(h, loads, before, lines[|lines| - 1])
  }

  // ---------------------------------------------------------------------------
  // The imperative server
  // ---------------------------------------------------------------------------

  class Server {
    const bridge: Bridge
    /** `json.dumps(..., indent=2, ensure_ascii=False)`. */
    const dumps: Json -> string
    /** `json.loads`, with `None` for a line that is not JSON. */
    const loads: string -> Option<Json>
    var requestId: Json
    /** The messages written to stdout, in order. */
    var out: seq<Json>

    constructor (session: HttpRequest -> Fetched, dumps: Json -> string, loads: string -> Option<Json>)
      ensures bridge.cfg == DEFAULT_CONFIG && bridge.get == session
      ensures this.dumps == dumps && this.loads == loads
      ensures requestId == JNull && out == []
    {
      bridge := new Bridge(None, session);
      this.dumps := dumps;
      this.loads := loads;
      requestId := JNull;
      out := [];
    }

    function Env(): Host {
      Host(bridge.cfg, bridge.get, dumps)
    }

    /** `_send`. */
    method Send(result: Json, error: Json)
      modifies this
      ensures requestId == old(requestId)
      ensures out == old(out) + Emitted(requestId, result, error)
    {
      if requestId == JNull {
        return;
      }
      var payload := [("jsonrpc", JStr(JSONRPC_VERSION)), ("id", requestId)];
      if error != JNull {
        payload := payload + [("error", error)];
      } else {
        payload := payload + [("result", if Truthy(result) then result else JObj([]))];
      }
      out := out + [JObj(payload)];
    }

    /** `_handle_initialize`. */
    method HandleInitialize(params: Json) returns (raised: Option<Fault>)
      modifies this
      ensures requestId == old(requestId)
      ensures InitializeResult(params).Ok? ==>
                raised.None? && out == old(out) + Emitted(requestId, InitializeResult(params).value, JNull)
      ensures InitializeResult(params).Err? ==> raised == Some(InitializeResult(params).fault) && out == old(out)
    {
      var clientVersion := GetFrom(params, "protocolVersion", JStr(DEFAULT_PROTOCOL_VERSION));
      if clientVersion.Err? {
        return Some(clientVersion.fault);
      }
      var result := JObj([("protocolVersion", clientVersion.value),
                          ("capabilities", JObj([("tools", JObj([("executable", JBool(true))]))])),
                          ("serverInfo", JObj([("name", JStr(SERVER_NAME)), ("version", JStr(SERVER_VERSION))]))]);
      Send(result, JNull);
      raised := None;
    }

    /** `_handle_list_tools`. */
    method HandleListTools()
      modifies this
      ensures requestId == old(requestId)
      ensures out == old(out) + Emitted(requestId, ToolsListResult(), JNull)
    {
      Send(ToolsListResult(), JNull);
    }

    /** The bridge call of a known tool. */
    method CallBridge(t: Tool, arguments: Json) returns (r: Result<seq<Json>>)
      ensures r == RunTool(Env(), t, arguments)
    {
      if t == VersionTool {
        r := bridge.GetVersionInfo();
        return;
      }
      var ids := GetFrom(arguments, "identifiers", JArr([]));
      if ids.Err? {
        return Err(ids.fault);
      }
      if !Truthy(ids.value) {
        return Err(ValueFault(IDENTIFIERS_REQUIRED));
      }
      var args := arguments.entries;
      match t
      case MapIdentifiersTool =>
        r := bridge.MapIdentifiers(ids.value, GetOr(args, "species", JNull), GetOr(args, "echo_query", JBool(false)));
      case NetworkTool =>
        r := bridge.GetNetworkInteractions(ids.value, GetOr(args, "species", JNull),
                                           GetOr(args, "required_score", JNull), GetOr(args, "add_nodes", JInt(0)),
                                           GetOr(args, "network_type", JStr("functional")));
      case EnrichmentTool =>
        r := bridge.GetFunctionalEnrichment(ids.value, GetOr(args, "species", JNull),
                                            GetOr(args, "background_identifiers", JNull));
    }

    /** `_handle_call_tool`: reading `name` and `arguments` may raise out of
      * the handler; every later failure is sent as an error payload. */
    method HandleCallTool(params: Json) returns (raised: Option<Fault>)
      modifies this
      ensures requestId == old(requestId)
      ensures CallToolAsWritten(Env(), params).Ok? ==>
                raised.None? && out == old(out) + Emitted(requestId, CallToolAsWritten(Env(), params).value.ToJson(), JNull)
      ensures CallToolAsWritten(Env(), params).Err? ==>
                raised == Some(CallToolAsWritten(Env(), params).fault) && out == old(out)
    {
      var name := GetFrom(params, "name", JNull);
      if name.Err? {
        return Some(name.fault);
      }
      // `params` is a dict from here on, so the second lookup cannot raise.
      var arguments := GetOr(params.entries, "arguments", JObj([]));
      var result: ToolResult;
      var tool := ToolNamed(name.value);
      if tool.None? {
        result := ErrorResult("Unknown tool: " + Str(name.value));
      } else {
        var data := CallBridge(tool.value, arguments);
        result := ToolOutcome(dumps, data);
      }
      Send(result.ToJson(), JNull);
      raised := None;
    }

    /** The `if`/`elif` chain of `run` that picks the handler for a request. */
    method HandleRequest(meth: Json, params: Json) returns (raised: Option<Fault>)
      modifies this
      ensures requestId == old(requestId)
      ensures Answer(Env(), meth, params).Ok? ==>
                raised.None? &&
                out == old(out) + Emitted(requestId, Answer(Env(), meth, params).value.0, Answer(Env(), meth, params).value.1)
      ensures Answer(Env(), meth, params).Err? ==> raised == Some(Answer(Env(), meth, params).fault) && out == old(out)
    {
      raised := None;
      if meth == JStr("initialize") {
        raised := HandleInitialize(params);
      } else if meth == JStr("tools/list") {
        HandleListTools();
      } else if meth == JStr("tools/call") {
        raised := HandleCallTool(params);
      } else if meth == JStr("resources/list") {
        Send(JObj([("resources", JArr([]))]), JNull);
      } else if meth == JStr("prompts/list") {
        Send(JObj([("prompts", JArr([]))]), JNull);
      } else {
        Send(JNull, MethodNotFound(meth));
      }
    }

    /** One iteration of `run`. */
    method HandleLine(raw: string) returns (raised: Option<Fault>)
      modifies this
      ensures RunState(requestId, out, raised) == StepLine(Env(), loads, RunState(old(requestId), old(out), None), raw)
    {
      raised := None;
      var line := Strip(raw);
      if line == "" {
        return;
      }
      var decoded := loads(line);
      if decoded.None? {
        requestId := JNull;
        return;
      }
      var req := decoded.value;
      if !req.JObj? {
        return Some(NoGetAttribute(req));
      }
      requestId := GetOr(req.entries, "id", JNull);
      var meth := GetOr(req.entries, "method", JNull);
      var params := GetOr(req.entries, "params", JObj([]));
      if requestId == JNull {
        return;
      }
      raised := HandleRequest(meth, params);
    }

    /** `run`: every line in turn, until one raises. */
    method Run(lines: seq<string>) returns (raised: Option<Fault>)
      modifies this
      ensures RunState(requestId, out, raised) ==
              RunLines(Env(), loads, RunState(old(requestId), old(out), None), lines)
    {
      ghost var start := RunState(requestId, out, None);
      raised := None;
      for i := 0 to |lines|
        invariant raised.None?
        invariant RunLines(Env(), loads, start, lines[..i]) == RunState(requestId, out, None)
      {
        assert lines[..i + 1][..i] == lines[..i];
        raised := HandleLine(lines[i]);
        if raised.Some? {
          assert RunLines(Env(), loads, start, lines[..i + 1]) == RunState(requestId, out, raised);
          assert RunLines(Env(), loads, start, lines) == RunState(requestId, out, raised) by {
            RunStopsAfterRaise(Env(), loads, start, lines[..i + 1], lines[i + 1..]);
            assert lines[..i + 1] + lines[i + 1..] == lines;
          }
          return;
        }
      }
      assert lines[..|lines|] == lines;
    }
  }

  /** Once a line has raised, later lines change nothing. */
  lemma {:induction false} RunStopsAfterRaise(h: Host, loads: string -> Option<Json>, st: RunState,
                                              done: seq<string>, rest: seq<string>)
    requires st.raised.None?
    requires RunLines(h, loads, st, done).raised.Some?
    ensures RunLines(h, loads, st, done + rest) == RunLines(h, loads, st, done)
    decreases |rest|
  {
    if |rest| == 0 {
      assert done + rest == done;
    } else {
      var shorter := rest[..|rest| - 1];
      RunStopsAfterRaise(h, loads, st, done, shorter);
      assert (done + rest)[..|done + rest| - 1] == done + shorter;
    }
  }
}
